=== FILE: README.md ===
# Forensic case management backend: a Dafny model

This project models the rules of a small REST backend for forensic cases. The backend covers:

- user registration and login with hashed passwords and signed tokens;
- an authentication gate in front of the protected routes;
- create, read, update and delete operations on *cases* and their *evidence* records.

The model is functional. Records are immutable datatypes. Each collection is a finite map, called a *store*. Each handler is a pure function from a request and a store to a response and the new store. Password hashing, token signing and token verification reach the model as function parameters with no interpretation.

Modules follow the source layout:

- `JsString` (`js_string.dfy`): the JavaScript string built-ins the code relies on. These are the `\s` whitespace class, `trim`, `toLowerCase` and `replace` with a string pattern.
- `UserModel`, `CaseModel`, `EvidenceModel`: the three document schemas. Each one models required fields, enumerations, defaults, setters, conditional requirements and document methods. `UserModel` also holds the user store, keyed by normalised email.
- `AuthMiddleware`: extracts the token from the header and runs the gate.
- `UserController` and `AuthController`: the two registration/login versions. They are modelled separately. `UserController` answers 409 for a taken email, 401 for bad credentials and 500 without a secret, and issues a 3-hour token. `AuthController` answers 400 throughout and issues a 1-hour token.
- `CaseController` and `EvidenceController`: find-or-404 handlers and partial updates.
- `Validation`, `UserRoutes` and `AuthRoutes`: the request-body validation chains, the 400 short-circuit that skips the controller, and `/perfil`.
- `Scenarios`: facts that span several handlers.
- `Wrappers`, `Documents`, `Http` and `Jwt` hold shared types:
  - `Option` and `Result`;
  - document ids and dates;
  - schema errors and the `required` rule;
  - the JSON body, the response and the handler result;
  - token claims, lifetimes and secret configuration.

Modelling choices:

- **Request body.** A request body is a map from field names to strings. A missing key is JavaScript's `undefined`.
- **Clock and ids.** The clock (`now`) and fresh document ids (`newId`) are inputs.
- **Secret.** The secret is an `Option<string>`. It counts as configured when it is present and non-empty, which is JavaScript truthiness.
- **`required` on strings.** A string satisfies `required` when it is present and non-empty. This is checked after the setters run, so a name of only spaces is refused.
- **Enum and match validators.** The `enum` validator skips an absent value. The `match` validator skips an empty one.
- **Email lookups.** Lookups by email go through the schema's `lowercase` and `trim` setters, as the document mapper applies them to query filters. So `findOne({ email })` finds a user whatever the letter case or outer spaces.
- **Partial updates.** `updateCase` and `updateEvidence` use `findByIdAndUpdate`, which runs no validators. Fields absent from the body are dropped from the update, as Mongoose 7 and later do (see "## Left out"). As a result, an update can store a case status outside the enumeration (`CaseController.UpdateCaseCanLeaveEnum`) or blank an image URL (`EvidenceController.UpdateCanBreakContentRule`).
- **Saves after a load.** `addEvidence` and `updateStatus` call `save()`, which validates the whole loaded document again. A case left invalid by an update therefore gives 500 on the next link (`CaseController.InvalidStatusBlocksLinking`).
- **`authController.js` is referenced by no router.** `src/routes/authRoutes.js` imports `userController.js` (line 2). So both routers put the same chains in front of `UserController`, and `AuthController` is reached by no route. The code on lines 60-125 of `src/routes/authRoutes.js` is identical to the same lines of `src/routes/userRoutes.js`; only the Swagger comments at lines 84 and 87 differ, in the documented path and tag. So the model defines the auth router's `/register` and `/login` by the user router's, and `AuthRoutes.SameAsUserRoutes` records that equality. It holds by that definition, not by a separate proof.

Facts about the code that the model keeps:

- **Enumeration values.** Roles are `Admin`/`Perito`/`Assistente` and statuses are `Em andamento`/`Finalizado`/`Arquivado`.
- **Evidence content fields.** The schema requires `imagemURL` of images and `conteudo` of texts and forbids neither on the other type. So a record may carry both (`EvidenceModel.BothContentsAccepted`).
- **Invalid tokens.** The middleware answers 400 for a token that fails verification (`src/middlewares/authMiddleware.js:20-22`). The `/perfil` documentation comment lists 401 for an invalid or expired token (`src/routes/authRoutes.js:138-139`).
- **Role and ownership checks.** Documentation comments list 403 for the user-management routes (`src/routes/userRoutes.js:164`, `:216`, `:250`, `src/routes/authRoutes.js:194`). No handler in the code answers 403, and those routes name handlers the controller does not define (see "## Left out").
- **Status codes and lifetimes.** Each controller keeps its own codes and token lifetime: `UserController` uses 409/401 and 3 hours, and `AuthController` uses 400 and 1 hour.

## Model

| member | source | states |
|---|---|---|
| JsString.Trim | src/models/userModel.js:5 | the `trim` setter: the result neither starts nor ends with whitespace and is no longer than the input |
| JsString.TrimRemovesOnlyOuterSpace | src/models/userModel.js:5 | `trim` removes only a whitespace prefix and a whitespace suffix: the result is the slice of the input between them |
| JsString.TrimTrimmed | src/models/userModel.js:12 | trimming a string that has no outer whitespace changes nothing |
| JsString.ToLowerCase | src/models/userModel.js:11 | the `lowercase` setter: same length, each character mapped by the ASCII case rule |
| JsString.ToLowerCaseFacts | src/models/userModel.js:11 | lower-casing leaves no upper-case ASCII letter, keeps whitespace at the same positions, and changes nothing in a string already lower case |
| JsString.IndexOf | src/middlewares/authMiddleware.js:5 | finds the leftmost occurrence at or after a position, or reports that there is none |
| JsString.RemoveFirst | src/middlewares/authMiddleware.js:5 | `replace(pat, "")` removes only the leftmost occurrence, wherever it is; without an occurrence the string is unchanged |
| JsString.RemoveFirstPrefix | src/middlewares/authMiddleware.js:5 | a string that starts with the pattern loses exactly that prefix |
| UserModel.ParseRole | src/models/userModel.js:18-22 | a role string is accepted exactly when it is one of Admin, Perito, Assistente, and reads back as that name |
| UserModel.RoleRoundTrip | src/models/userModel.js:20 | every role's name is in the enumeration and parses back to the same role |
| UserModel.EmailShapeDecided | src/models/userModel.js:13 | the one-pass decision procedure agrees with the pattern `^\S+@\S+\.\S+$` on every string |
| UserModel.EmailShapeSplits | src/models/userModel.js:13 | a string matches the pattern if and only if it has no whitespace and splits as `a@b.c` with `a`, `b`, `c` non-empty |
| UserModel.NormalizeEmailFacts | src/models/userModel.js:7-12 | a normalised email is lower case with no outer whitespace, and normalising it again changes nothing |
| UserModel.CreateUser | src/models/userModel.js:3-25 | a user document is accepted if and only if the trimmed name is non-empty, the normalised email is non-empty and passes the one-pass pattern check, a password is present and non-empty, and the role is absent or in the enumeration; the accepted user stores the trimmed name, the normalised email, the given password, and Perito when no role was given |
| UserModel.CreateUserAcceptsPattern | src/models/userModel.js:3-25 | the same acceptance condition stated with the pattern `^\S+@\S+\.\S+$` itself |
| UserModel.CreatedUserIsValid | src/models/userModel.js:3-25 | every accepted user has a non-empty trimmed name, a lower-case trimmed email that matches the pattern, and a non-empty password |
| UserModel.ToJSON | src/models/userModel.js:28-32 | `toJSON` removes exactly `senha`, leaving every other key with its value |
| UserModel.PublicAgreesWithJSON | src/controllers/userController.js:35 | the `{ id, nome, email, role }` response object matches `toJSON` field for field and has exactly its modelled keys (the timestamps and `__v` are not modelled) |
| UserModel.FindByEmailMatchesStoredEmail | src/controllers/userController.js:18 | in a consistent store, `findOne({ email })` finds a user exactly when some stored user's `email` equals the normalised filter value, and the user found has that email |
| UserModel.EmailsUnique | src/models/userModel.js:10 | in a store that keeps its invariant, two users with the same email are the same entry |
| UserModel.InsertKeepsInvariant | src/models/userModel.js:10 | storing a valid user under its own unused email, with an unused id, keeps every user valid, keyed by its email, and ids distinct |
| CaseModel.Save | src/models/caseModel.js:3-14 | `save()` accepts a case if and only if `titulo` and `descricao` are non-empty and the status is in the enumeration |
| CaseModel.NewCase | src/models/caseModel.js:3-14 | a new case is accepted if and only if `titulo` and `descricao` are present and non-empty; it starts as `Em andamento`, opened now, with no closing date and no evidence |
| CaseModel.AddEvidence | src/models/caseModel.js:19-22 | `addEvidence` appends the id: length grows by one, the old list is a prefix, a duplicate is counted again, and nothing else changes |
| CaseModel.UpdateStatus | src/models/caseModel.js:27-33 | `updateStatus` sets the status; only `Finalizado` stamps the closing date, any other status keeps it; nothing else changes |
| CaseModel.UpdateStatusValidity | src/models/caseModel.js:6-10 | a valid case stays valid under `updateStatus` exactly when the new status is in the enumeration |
| CaseModel.GenerateReport | src/models/caseModel.js:39-48 | `generateReport` copies the case's title, description, status, opening and closing dates, and counts its evidence ids; how the report moves with the case is stated by `CaseModel.ReportAfterAddEvidence`, `CaseModel.ReportAfterUpdateStatus` and `CaseModel.ReportIgnoresEvidenceIds` |
| CaseModel.ReportIgnoresEvidenceIds | src/models/caseModel.js:46 | the report depends on how many evidence ids a case lists, not on which ones |
| CaseModel.ReportAfterAddEvidence | src/models/caseModel.js:39-48 | adding evidence raises the report's `totalEvidencias` by one and leaves the other report fields unchanged |
| CaseModel.ReportAfterUpdateStatus | src/models/caseModel.js:39-48 | after `updateStatus` the report shows the new status and the same evidence count, and after closing it shows the closing date |
| EvidenceModel.NewEvidence | src/models/evidenceModel.js:3-30 | a record is accepted if and only if `tipo` is Imagem or Texto, `descricao` is non-empty, a collector is given, an image has a URL and a text has content; the accepted record keeps the given fields, the collector and the collection date |
| EvidenceModel.BothContentsAccepted | src/models/evidenceModel.js:22-29 | a record of either type carrying both `imagemURL` and `conteudo` is accepted |
| EvidenceModel.MissingContentRefused | src/models/evidenceModel.js:22-29 | an image without `imagemURL` and a text without `conteudo` are refused |
| EvidenceModel.MissingCollectorRefused | src/models/evidenceModel.js:17-21 | without `coletadoPor` no record is saved, whatever the other fields hold, and the failure names `coletadoPor` |
| AuthMiddleware.ExtractToken | src/middlewares/authMiddleware.js:5-9 | no header gives no token; otherwise the token is the header minus its first `Bearer `, wherever it sits, or the header itself when `Bearer ` does not occur; an empty result counts as no token |
| AuthMiddleware.BearerHeaderYieldsToken | src/middlewares/authMiddleware.js:5 | a header `Bearer <t>` with non-empty `t` yields exactly `t` |
| AuthMiddleware.BareSchemeHasNoToken | src/middlewares/authMiddleware.js:5-9 | the header `Bearer ` alone and the empty header both count as no token |
| AuthMiddleware.OnlyFirstPrefixRemoved | src/middlewares/authMiddleware.js:5 | `Bearer Bearer t` yields `Bearer t`: only the first occurrence is removed |
| AuthMiddleware.Gate | src/middlewares/authMiddleware.js:3-23 | no token gives 401; a token that fails verification gives 400; otherwise `next` runs once with `req.user` set to the decoded claims and every other request part unchanged |
| UserController.Register | src/controllers/userController.js:13-41 | a taken email gives 409 with the store unchanged; 201 exactly when the email is new, a password is present and the schema accepts the document with the digest; then exactly one user is added under the normalised email, its `senha` is `hash(senha)`, and the response carries the public fields; every other outcome leaves the store unchanged |
| UserController.RegisterPreservesInvariant | src/controllers/userController.js:18-31 | with a fresh id, registration keeps every user valid, keyed by its own email, and ids distinct |
| UserController.SecondRegistrationRefused | src/controllers/userController.js:18-20 | after a successful registration, registering an email with the same normalisation gives 409 and changes nothing |
| UserController.Login | src/controllers/userController.js:44-82 | an unknown email and a wrong password both give the same 401; valid credentials without a configured secret give 500; 200 exactly when credentials and secret are good, with a token signed over `{id, nome, email, role}` for 3 hours and the public user fields |
| UserController.LoginDoesNotRevealAccounts | src/controllers/userController.js:49-58 | an unknown email and a wrong password produce identical responses |
| AuthController.Register | src/controllers/authController.js:7-41 | a taken email gives 400 `E-mail já cadastrado`, checked before the role; a new email with an absent or unknown role gives 400 `Role inválido`; 201 adds exactly one user with the digest and the given role, and responds with a message only; every other outcome leaves the store unchanged |
| AuthController.RegisterPreservesInvariant | src/controllers/authController.js:12-35 | with a fresh id, this registration also keeps every user valid, keyed by its own email, and ids distinct |
| AuthController.Login | src/controllers/authController.js:44-71 | an unknown email and a wrong password both give 400 `Credenciais inválidas`; 200 exactly when credentials and secret are good, with a 1-hour token over `{id, nome, email, role}` and no user data; any other outcome is 500 |
| AuthController.LoginDoesNotRevealAccounts | src/controllers/authController.js:49-58 | an unknown email and a wrong password produce identical responses |
| CaseController.CreateCase | src/controllers/caseController.js:8-23 | 201 exactly when `titulo` and `descricao` are non-empty; then one case is added under the fresh id with those values, the default status, no evidence and no closing date; otherwise 500 with the store unchanged |
| CaseController.CreatedCaseReadsBack | src/controllers/caseController.js:8-55 | a case `createCase` stored reads back through `getCaseById` with 200 as a valid case with status `Em andamento` and no evidence, and every earlier case reads back as before |
| CaseController.GetCaseById | src/controllers/caseController.js:41-55 | an absent id gives 404; a present one returns that case with 200 |
| CaseController.UpdateCase | src/controllers/caseController.js:60-80 | an absent id gives 404 with the store unchanged; otherwise only `titulo`, `descricao` and `status` of that case take the body's values; the evidence list, the opening date and the closing date are unchanged, even when the status becomes `Finalizado`, and every other case is unchanged |
| CaseController.AddEvidenceToCase | src/controllers/caseController.js:85-103 | a missing case or evidence gives 404 with the store unchanged; 200 exactly when both exist and the extended case passes validation; then the id is appended to that case only and nothing else in it changes |
| CaseController.CloseCase | src/controllers/caseController.js:108-123 | an absent id gives 404; 200 exactly when the case has a title and description; then its status is `Finalizado`, its closing date is now, its evidence is kept, and other cases are unchanged |
| CaseController.ValidatedHandlersKeepStatus | src/controllers/caseController.js:85-123 | linking evidence and closing keep a case's status in the enumeration |
| CaseController.UpdateCaseCanLeaveEnum | src/controllers/caseController.js:65-69 | `updateCase` accepts and stores a status outside the enumeration |
| CaseController.InvalidStatusBlocksLinking | src/controllers/caseController.js:90-97 | a case whose status is outside the enumeration cannot take evidence: 500, store unchanged |
| EvidenceController.CreateEvidence | src/controllers/evidenceController.js:7-25 | 201 exactly when the schema accepts the record; the record's collector is the authenticated user's id; otherwise 500 with the store unchanged |
| EvidenceController.CollectorComesFromToken | src/controllers/evidenceController.js:9-18 | a `coletadoPor` field in the body does not change the outcome |
| EvidenceController.CreateEvidenceRoute | src/routes/evidenceRoutes.js:34 | a request the gate stops gets the gate's 400 or 401 and leaves the store unchanged; a passed request is handled with the gate's `req.user` |
| EvidenceController.GetEvidenceById | src/controllers/evidenceController.js:42-55 | an absent id gives 404; a present one returns that record with 200 |
| EvidenceController.UpdateEvidence | src/controllers/evidenceController.js:60-79 | an absent id gives 404 with the store unchanged; otherwise only `descricao`, `imagemURL` and `conteudo` change; `tipo`, `coletadoPor` and `dataColeta` keep their values whatever the body holds |
| EvidenceController.UpdateCanBreakContentRule | src/controllers/evidenceController.js:65-69 | an update can blank an image's URL, which creation would have refused |
| EvidenceController.DeleteEvidence | src/controllers/evidenceController.js:84-98 | an absent id gives 404 with the store unchanged; otherwise exactly that record is removed and every other record is kept |
| EvidenceController.DeleteThenGetIsNotFound | src/controllers/evidenceController.js:88-94 | after a delete, reading or deleting the same id gives 404 |
| Validation.RegisterErrors | src/routes/userRoutes.js:62-71 | no errors exactly when `nome` is non-empty, `email` passes the email check, `senha` has at least 6 characters and `role` is in the enumeration; each failing field contributes its own message |
| Validation.LoginErrors | src/routes/userRoutes.js:113-116 | no errors exactly when `email` passes the email check and `senha` is non-empty; each failing field contributes its own message |
| Validation.PassingBodyHasFields | src/routes/userRoutes.js:63-70 | a body that passes a chain carries every field the chain checks |
| UserRoutes.PostRegister | src/routes/userRoutes.js:60-80 | any chain failure gives 400 with the error list and the controller is not invoked; otherwise `UserController.register` handles the body |
| UserRoutes.PostLogin | src/routes/userRoutes.js:111-125 | any chain failure gives 400 with the error list and the controller is not invoked; otherwise `UserController.login` handles the body |
| UserRoutes.RegisterThroughRouter | src/routes/userRoutes.js:63-70 | an empty name, a short password or an unknown role is rejected; a body that reaches the controller has a password of at least 6 characters and a valid role |
| AuthRoutes.PostRegister | src/routes/authRoutes.js:60-80 | the auth router rejects a failing body with 400 and the chain's exact error list, without calling a controller, and otherwise calls `UserController.register`, not `authController` |
| AuthRoutes.PostLogin | src/routes/authRoutes.js:111-125 | the auth router rejects a failing body with 400 and the chain's exact error list, without calling a controller, and otherwise calls `UserController.login` |
| AuthRoutes.SameAsUserRoutes | src/routes/authRoutes.js:60-125 | the auth router's `/register` and `/login` give exactly the user router's outcome for every body and store |
| AuthRoutes.Perfil | src/routes/authRoutes.js:145-148 | `/perfil` answers with the gate's refusal, or with 200 and exactly the claims the gate attached |
| AuthRoutes.PerfilEchoesClaims | src/routes/authRoutes.js:145-148 | a `Bearer` header whose token verifies returns exactly the decoded claims; no header gives 401 |
| Scenarios.RegisterLoginPerfil | src/controllers/userController.js:67-77 | when a registration through the router succeeds, logging in with the same email and password and presenting the token gives a profile with the new user's id and normalised email |
| Scenarios.DeletedEvidenceStaysListed | src/controllers/evidenceController.js:88-92 | deleting evidence leaves cases that list it unchanged, and linking the deleted id again gives 404 |

## Left out

- Express plumbing is not modelled: `src/server.js`, the Swagger configuration, and the wiring of the case and evidence routers. The one exception is the rule that a protected handler runs only after the gate, shown for evidence creation by `EvidenceController.CreateEvidenceRoute`. These parts route requests and state no rule.
- Only `authRoutes.js` is mounted (`src/server.js:5`, `:20`). `userRoutes.js`, `caseRoutes.js` and `evidenceRoutes.js` are mounted nowhere. Each router's chain is modelled on its own, as if its module loaded and were mounted.
- Several routes name handlers that the controllers do not define:
  - `UserController.updateUser` (`src/routes/authRoutes.js:202`, `src/routes/userRoutes.js:224`);
  - `UserController.getAllUsers` (`src/routes/userRoutes.js:170`);
  - `UserController.deleteUser` (`src/routes/userRoutes.js:257`);
  - `EvidenceController.getAllEvidences` (`src/routes/evidenceRoutes.js:51`).

  Express refuses an undefined route callback when the module loads. So, as written, loading `authRoutes.js` from `src/server.js:5` fails before any route is served. The model describes the routes as if those registrations were absent.
- bcrypt and jsonwebtoken are function parameters (`hash`, `compare`, `sign`, `verify`). Salts, cost factors (10 and 12 rounds), signature cryptography and real-time expiry are not modelled. The token lifetime is the recorded number of seconds. Token verification is an opaque partial function because it is foreign code.
- The document database is modelled as finite maps. ObjectId generation, `Date.now()` and `new Date()` are inputs. Not modelled: `populate`, the `timestamps` bookkeeping fields, `__v`, and the listing handlers `getAllCases` and `getAllEvidence`. They are persistence details with no rule of their own.
- A malformed id string makes the database throw a cast error, which surfaces as 500. It is not modelled, because ids are opaque strings here.
- The generic `catch` paths for database failures and their console logging are not modelled. The `error` detail attached to 500 bodies is also left out. They only translate an exception into 500.
- The concurrent read-then-write race on `addEvidenceToCase` is not modelled: handlers run one at a time here.
- The user-management routes (`/buscar`, `/atualizar/:id`, `/delete/:id`, `/:id`) are not modelled. Their admin-only and self-only rules exist only in documentation comments, and their handlers do not exist in the controller.
- The Mongoose major version is not recorded in the repository, and the model assumes version 7 or later. There, `findByIdAndUpdate` strips keys whose value is `undefined`, so `UpdateCase` and `UpdateEvidence` keep the stored value of a field missing from the body. Under version 6 or earlier, without `omitUndefined`, those keys would be sent as `null` and clear `titulo`, `descricao`, `status`, `imagemURL` or `conteudo`.
- Password hashing is uninterpreted. A registration succeeds only when `hash(senha)` is non-empty, because the stored password must satisfy `required`. bcrypt digests are never empty, but the model does not assume it.
- The frontend scripts are not modelled: they are DOM, fetch and storage code.
- Request bodies hold only strings. JSON `null`, numbers and nested objects are not modelled.
- express-validator's `isEmail` is an opaque parameter. The routers are modelled under the assumption that it refuses the empty string.
- EvidenceController.CreateEvidence: the decoded claims always carry `id`, so the handler always passes a collector and the `required` rule on `coletadoPor` cannot fail through it. A verified token whose payload lacks `id` would make `req.user.id` undefined and give 500. Tokens are signed only by the two login handlers, which always include `id`. The rule itself is modelled by `EvidenceModel.NewEvidence`.
- The decoded token payload keeps only the signed `{ id, nome, email, role }`. The `iat` and `exp` fields that `jwt.verify` adds, and that `/perfil` echoes back, are not represented. No rule in the model reads them.
- Error objects in validation responses keep only the field and the message, not `value`, `type` or `location`.
- Schema violations are listed in schema order, one per path. Apart from `coletadoPor`'s `required` error (`EvidenceModel.MissingCollectorRefused`), only whether the list is empty is relied on.
- JsString.ToLowerCase: maps only ASCII `A`-`Z`. JavaScript's `toLowerCase` also maps every other Unicode upper-case letter, some to two characters, and full Unicode case tables are out of scope.
- Validation.RegisterErrors: counts password length in code points. Newer validator releases also discount variation selectors, which is library-version detail.
- UserController.Register: requires an `email` field. Its only callers are the routers, whose chains refuse a missing email.
- UserController.Login: requires an `email` field, for the same reason as `UserController.Register`.
- AuthController.Register: requires an `email` field. No router mounts this controller, and a lookup with an undefined filter value is database-driver behaviour.
- AuthController.Login: requires an `email` field, for the same reason as `AuthController.Register`.

=== FILE: auth_controller.dfy ===
/** `authController`, the second version of registration and login: 400 for
    a taken email and for a role outside the enumeration, 400 for bad
    credentials, and a one-hour token. No router mounts it. */
module AuthController {
  import opened Wrappers
  import opened Http
  import opened Documents
  import opened Jwt
  import opened UserModel

  datatype Body =
    | Message(message: string)
    | LoggedIn(message: string, token: Token)

  const DuplicateEmail: string := "E-mail já cadastrado"
  const InvalidRole: string := "Role inválido"
  const RegisterFailed: string := "Erro ao registrar usuário"
  const RegisterOk: string := "Usuário registrado com sucesso!"
  const BadCredentials: string := "Credenciais inválidas"
  const LoginFailed: string := "Erro ao fazer login"
  const LoginOk: string := "Login bem-sucedido"

  /** `register`: the email check runs first, then the role check (an absent
      role fails it); a missing password or a document the schema refuses
      gives 500; success stores the user with the digest and answers 201
      with a message only. */
  function Register(st: UserStore, b: JsonBody, newId: ObjectId, hash: string -> string)
    : (out: Handled<Body, UserStore>)
    requires "email" in b
    ensures NormalizeEmail(b["email"]) in st ==> out == Handled(Response(400, Message(DuplicateEmail)), st)
    ensures NormalizeEmail(b["email"]) !in st && ("role" !in b || b["role"] !in RoleNames) ==>
      out == Handled(Response(400, Message(InvalidRole)), st)
    ensures out.response.status in {201, 400, 500}
    ensures out.response.status != 201 ==> out.store == st
    ensures out.response.status == 201 <==>
      && NormalizeEmail(b["email"]) !in st && "role" in b && b["role"] in RoleNames && "senha" in b
      && CreateUser(newId, FieldsFromBody(b, hash(b["senha"]))).Ok?
    ensures out.response.status == 201 ==>
      var key := NormalizeEmail(b["email"]);
      && "senha" in b && "role" in b
      && key !in st && key in out.store && out.store - {key} == st
      && out.store[key].id == newId
      && out.store[key].senha == hash(b["senha"])
      && RoleName(out.store[key].role) == b["role"]
      && out.response.body == Message(RegisterOk)
  {
    if NormalizeEmail(b["email"]) in st then Handled(Response(400, Message(DuplicateEmail)), st)
    else if "role" !in b || ParseRole(b["role"]).None? then Handled(Response(400, Message(InvalidRole)), st)
    else if "senha" !in b then Handled(Response(500, Message(RegisterFailed)), st)
    else match CreateUser(newId, FieldsFromBody(b, hash(b["senha"])))
      case Err(_) => Handled(Response(500, Message(RegisterFailed)), st)
      case Ok(u) =>
        assert st[u.email := u] - {u.email} == st;
        Handled(Response(201, Message(RegisterOk)), st[u.email := u])
  }

  /** A successful registration keeps the store's invariant when the new id
      is fresh. */
  lemma RegisterPreservesInvariant(st: UserStore, b: JsonBody, newId: ObjectId, hash: string -> string)
    requires StoreInvariant(st) && !IdInUse(st, newId) && "email" in b
    ensures StoreInvariant(Register(st, b, newId, hash).store)
  {
    var out := Register(st, b, newId, hash);
    if out.response.status == 201 {
      var u := CreateUser(newId, FieldsFromBody(b, hash(b["senha"]))).value;
      CreatedUserIsValid(newId, FieldsFromBody(b, hash(b["senha"])));
      assert out.store == st[u.email := u];
      InsertKeepsInvariant(st, u);
    }
  }

  /** `login`: one 400 for an unknown email and for a wrong password; 500
      when the password is missing or the library refuses to sign without a
      secret (both throw); otherwise a one-hour token and no user data. */
  function Login(st: UserStore, b: JsonBody, compare: (string, string) -> bool,
                 secret: Option<string>, sign: Signer): (r: Response<Body>)
    requires "email" in b
    ensures FindByEmail(st, b["email"]).None? ==> r == Response(400, Message(BadCredentials))
    ensures FindByEmail(st, b["email"]).Some? && "senha" in b
            && !compare(b["senha"], FindByEmail(st, b["email"]).value.senha) ==>
      r == Response(400, Message(BadCredentials))
    ensures r.status == 200 <==>
      && FindByEmail(st, b["email"]).Some? && "senha" in b
      && compare(b["senha"], FindByEmail(st, b["email"]).value.senha) && SecretConfigured(secret)
    ensures r.status == 200 ==>
      var u := st[NormalizeEmail(b["email"])];
      r.body == LoggedIn(LoginOk, sign(ClaimsOf(u), secret.value, OneHour))
    ensures r.status !in {200, 400} ==> r == Response(500, Message(LoginFailed))
  {
    match FindByEmail(st, b["email"])
    case None => Response(400, Message(BadCredentials))
    case Some(u) =>
      if "senha" !in b then Response(500, Message(LoginFailed))
      else if !compare(b["senha"], u.senha) then Response(400, Message(BadCredentials))
      else if !SecretConfigured(secret) then Response(500, Message(LoginFailed))
      else Response(200, LoggedIn(LoginOk, sign(ClaimsOf(u), secret.value, OneHour)))
  }

  /** An unknown email and a wrong password cannot be told apart. */
  lemma LoginDoesNotRevealAccounts(st: UserStore, unknown: JsonBody, wrong: JsonBody,
                                   compare: (string, string) -> bool, secret: Option<string>, sign: Signer)
    requires "email" in unknown && FindByEmail(st, unknown["email"]).None?
    requires "email" in wrong && "senha" in wrong && FindByEmail(st, wrong["email"]).Some?
    requires !compare(wrong["senha"], FindByEmail(st, wrong["email"]).value.senha)
    ensures Login(st, unknown, compare, secret, sign) == Login(st, wrong, compare, secret, sign)
  {
  }
}

=== FILE: auth_middleware.dfy ===
/** The authentication gate put in front of protected routes: it takes the
    token out of the `Authorization` header, has the token library verify
    it, and either stops the request or passes it on with `req.user` set. */
module AuthMiddleware {
  import opened Wrappers
  import opened JsString
  import opened Http
  import opened Jwt

  /** The text removed from the header; the scheme itself is never checked. */
  const BearerPrefix: string := "Bearer "

  const NoTokenMessage: string := "Acesso negado. Token não fornecido."
  const InvalidTokenMessage: string := "Token inválido"

  /** The parts of a request the handlers read; `user` is what the gate attaches. */
  datatype Request<B> = Request(
    authorization: Option<string>, body: B, user: Option<Claims>)

  /** `req.header("Authorization") && ....replace("Bearer ", "")`, read as
      JavaScript truthiness: `None` for a missing header and for an empty
      result. */
  function ExtractToken(authorization: Option<string>): (t: Option<Token>)
    ensures t.Some? ==> t.value != ""
    ensures authorization.None? ==> t.None?
    ensures authorization.Some? && (forall k :: !OccursAt(authorization.value, BearerPrefix, k)) ==>
      t == if authorization.value == "" then None else Some(authorization.value)
    ensures authorization.Some? ==>
      forall k :: FirstOccurrence(authorization.value, BearerPrefix, k) ==>
        var rest := authorization.value[..k] + authorization.value[k + |BearerPrefix|..];
        t == if rest == "" then None else Some(rest)
  {
    match authorization
    case None => None
    case Some(h) =>
      var token := RemoveFirst(h, BearerPrefix);
      if token == "" then None else Some(token)
  }

  /** The header form `Bearer <token>` yields exactly the token. */
  lemma BearerHeaderYieldsToken(t: Token)
    requires t != ""
    ensures ExtractToken(Some(BearerPrefix + t)) == Some(t)
  {
    RemoveFirstPrefix(BearerPrefix, t);
  }

  /** The bare scheme and the empty header both count as no token. */
  lemma BareSchemeHasNoToken()
    ensures ExtractToken(Some(BearerPrefix)) == None
    ensures ExtractToken(Some("")) == None
  {
    RemoveFirstPrefix(BearerPrefix, "");
    assert BearerPrefix + "" == BearerPrefix;
  }

  /** Only the first `Bearer ` goes: a doubled prefix leaves one behind. */
  lemma OnlyFirstPrefixRemoved(t: Token)
    ensures ExtractToken(Some(BearerPrefix + BearerPrefix + t)) == Some(BearerPrefix + t)
  {
    assert BearerPrefix + BearerPrefix + t == BearerPrefix + (BearerPrefix + t);
    RemoveFirstPrefix(BearerPrefix, BearerPrefix + t);
  }

  /** What the gate does with a request: stop it with a response, or call
      `next` once with the request it passes on. */
  datatype GateResult<B> = Denied(response: Response<string>) | Next(request: Request<B>)

  /** `authMiddleware`: 401 without a token, 400 when verification fails,
      otherwise the same request with `req.user` set to the decoded claims. */
  function Gate<B>(req: Request<B>, verify: Verifier): (g: GateResult<B>)
    ensures ExtractToken(req.authorization).None? ==> g == Denied(Response(401, NoTokenMessage))
    ensures ExtractToken(req.authorization).Some? && verify(ExtractToken(req.authorization).value).None? ==>
      g == Denied(Response(400, InvalidTokenMessage))
    ensures g.Next? <==>
      ExtractToken(req.authorization).Some? && verify(ExtractToken(req.authorization).value).Some?
    ensures g.Next? ==>
      && g.request.user == verify(ExtractToken(req.authorization).value)
      && g.request.(user := req.user) == req
  {
    match ExtractToken(req.authorization)
    case None => Denied(Response(401, NoTokenMessage))
    case Some(token) =>
      match verify(token)
      case None => Denied(Response(400, InvalidTokenMessage))
      case Some(decoded) => Next(req.(user := Some(decoded)))
  }
}

=== FILE: auth_routes.dfy ===
/** The auth router. It mounts the same chains as the user router, in front
    of `UserController` rather than `AuthController`, and adds `/perfil`. */
module AuthRoutes {
  import opened Wrappers
  import opened Http
  import opened Documents
  import opened Jwt
  import opened Validation
  import opened UserModel
  import UserController
  import UserRoutes
  import AuthMiddleware

  /** `POST /register`: the file repeats the user router's chain, 400
      short-circuit and `UserController.register` verbatim, so the model
      reuses that definition. */
  function PostRegister(st: UserStore, b: JsonBody, isEmail: string -> bool, newId: ObjectId,
                        hash: string -> string): (d: Dispatch<Handled<UserController.Body, UserStore>>)
    requires !isEmail("")
    ensures d.Rejected? <==> RegisterErrors(b, isEmail) != []
    ensures d.Rejected? ==> d.response == Response(400, RegisterErrors(b, isEmail))
    ensures d.Invoked? ==> "email" in b && d.result == UserController.Register(st, b, newId, hash)
  {
    UserRoutes.PostRegister(st, b, isEmail, newId, hash)
  }

  /** `POST /login`: likewise the user router's chain and
      `UserController.login`. */
  function PostLogin(st: UserStore, b: JsonBody, isEmail: string -> bool, compare: (string, string) -> bool,
                     secret: Option<string>, sign: Signer): (d: Dispatch<Response<UserController.Body>>)
    requires !isEmail("")
    ensures d.Rejected? <==> LoginErrors(b, isEmail) != []
    ensures d.Rejected? ==> d.response == Response(400, LoginErrors(b, isEmail))
    ensures d.Invoked? ==> "email" in b && d.result == UserController.Login(st, b, compare, secret, sign)
  {
    UserRoutes.PostLogin(st, b, isEmail, compare, secret, sign)
  }

  /** `/api/auth/register` and `/api/auth/login` behave exactly as the user
      router's `/register` and `/login`: same chains, same controller. */
  lemma SameAsUserRoutes(st: UserStore, b: JsonBody, isEmail: string -> bool, newId: ObjectId,
                         hash: string -> string, compare: (string, string) -> bool,
                         secret: Option<string>, sign: Signer)
    requires !isEmail("")
    ensures PostRegister(st, b, isEmail, newId, hash) == UserRoutes.PostRegister(st, b, isEmail, newId, hash)
    ensures PostLogin(st, b, isEmail, compare, secret, sign) == UserRoutes.PostLogin(st, b, isEmail, compare, secret, sign)
  {
  }

  datatype PerfilBody =
    | Refused(message: string)
    | Profile(message: string, user: Claims)

  const PerfilOk: string := "Acesso autorizado"

  /** `GET /perfil`: the gate's answer when it stops the request, otherwise
      200 with exactly the claims the gate attached. */
  function Perfil(req: AuthMiddleware.Request<JsonBody>, verify: Verifier): (r: Response<PerfilBody>)
    ensures AuthMiddleware.Gate(req, verify).Denied? ==>
      var g := AuthMiddleware.Gate(req, verify).response;
      r == Response(g.status, Refused(g.body))
    ensures AuthMiddleware.Gate(req, verify).Next? ==>
      r == Response(200, Profile(PerfilOk, AuthMiddleware.Gate(req, verify).request.user.value))
    ensures r.status == 200 <==> AuthMiddleware.Gate(req, verify).Next?
  {
    match AuthMiddleware.Gate(req, verify)
    case Denied(g) => Response(g.status, Refused(g.body))
    case Next(passed) => Response(200, Profile(PerfilOk, passed.user.value))
  }

  /** With a `Bearer` header whose token verifies, the profile is exactly
      the decoded claims; without a header the answer is 401. */
  lemma PerfilEchoesClaims(req: AuthMiddleware.Request<JsonBody>, verify: Verifier, t: Token, c: Claims)
    requires t != "" && verify(t) == Some(c)
    ensures Perfil(req.(authorization := Some(AuthMiddleware.BearerPrefix + t)), verify)
      == Response(200, Profile(PerfilOk, c))
    ensures Perfil(req.(authorization := None), verify).status == 401
  {
    AuthMiddleware.BearerHeaderYieldsToken(t);
  }
}

=== FILE: case_controller.dfy ===
/** `CaseController`: find-or-404 handlers over the case collection. The
    case router puts the authentication gate in front of each of them; the
    handlers themselves never read `req.user`. */
module CaseController {
  import opened Wrappers
  import opened Http
  import opened Documents
  import opened CaseModel
  import EvidenceModel

  type CaseStore = map<ObjectId, Case>

  datatype Body =
    | Message(message: string)
    | CaseDoc(doc: Case)
    | WithCase(message: string, doc: Case)

  const CaseNotFound: string := "Caso não encontrado"
  const CreateOk: string := "Caso criado com sucesso!"
  const CreateFailed: string := "Erro ao criar caso"
  const UpdateOk: string := "Caso atualizado com sucesso!"
  const LinkNotFound: string := "Caso ou evidência não encontrados"
  const LinkOk: string := "Evidência adicionada ao caso com sucesso!"
  const LinkFailed: string := "Erro ao adicionar evidência ao caso"
  const CloseOk: string := "Caso finalizado com sucesso!"
  const CloseFailed: string := "Erro ao finalizar caso"

  /** `createCase`: only `titulo` and `descricao` are read from the body;
      a case the schema accepts is added under the fresh id with 201,
      otherwise the save throws and the answer is 500. */
  function CreateCase(st: CaseStore, b: JsonBody, newId: ObjectId, now: Date): (out: Handled<Body, CaseStore>)
    requires newId !in st
    ensures out.response.status == 201 <==> RequiredString(Field(b, "titulo")) && RequiredString(Field(b, "descricao"))
    ensures out.response.status != 201 ==> out == Handled(Response(500, Message(CreateFailed)), st)
    ensures out.response.status == 201 ==>
      && newId in out.store && out.store - {newId} == st
      && var c := out.store[newId];
      && c.titulo == b["titulo"] && c.descricao == b["descricao"]
      && c.status == EmAndamento && c.evidencias == [] && c.dataFechamento.None? && c.dataAbertura == now
      && out.response.body == WithCase(CreateOk, c)
  {
    match NewCase(newId, Field(b, "titulo"), Field(b, "descricao"), now)
    case Err(_) => Handled(Response(500, Message(CreateFailed)), st)
    case Ok(c) =>
      assert st[newId := c] - {newId} == st;
      Handled(Response(201, WithCase(CreateOk, c)), st[newId := c])
  }

  /** A created case reads back with 200 as a valid case with the default
      status and no evidence, and every case stored before reads back as
      it did. */
  lemma CreatedCaseReadsBack(st: CaseStore, b: JsonBody, newId: ObjectId, now: Date)
    requires newId !in st
    ensures var out := CreateCase(st, b, newId, now);
      out.response.status == 201 ==>
      && GetCaseById(out.store, newId) == Response(200, CaseDoc(out.store[newId]))
      && ValidCase(out.store[newId])
      && out.store[newId].status == EmAndamento && out.store[newId].evidencias == []
      && forall k :: k in st ==> GetCaseById(out.store, k) == GetCaseById(st, k)
  {
  }

  /** `getCaseById`. */
  function GetCaseById(st: CaseStore, id: ObjectId): (r: Response<Body>)
    ensures id !in st ==> r == Response(404, Message(CaseNotFound))
    ensures id in st ==> r == Response(200, CaseDoc(st[id]))
  {
    if id in st then Response(200, CaseDoc(st[id])) else Response(404, Message(CaseNotFound))
  }

  /** The `{ titulo, descricao, status }` update: a field absent from the
      body is dropped from the update and keeps its stored value. */
  function ApplyCaseUpdate(c: Case, b: JsonBody): Case {
    c.(titulo := if "titulo" in b then b["titulo"] else c.titulo,
       descricao := if "descricao" in b then b["descricao"] else c.descricao,
       status := if "status" in b then b["status"] else c.status)
  }

  /** `updateCase` (`findByIdAndUpdate`, which runs no validators): only the
      three fields change; the evidence list and both dates stay, so setting
      `Finalizado` here never stamps a closing date. */
  function UpdateCase(st: CaseStore, id: ObjectId, b: JsonBody): (out: Handled<Body, CaseStore>)
    ensures id !in st ==> out == Handled(Response(404, Message(CaseNotFound)), st)
    ensures id in st ==>
      && out.response.status == 200
      && out.store.Keys == st.Keys
      && (forall k :: k in st && k != id ==> out.store[k] == st[k])
      && var c, c' := st[id], out.store[id];
      && c'.id == c.id && c'.evidencias == c.evidencias
      && c'.dataAbertura == c.dataAbertura && c'.dataFechamento == c.dataFechamento
      && c'.titulo == (if "titulo" in b then b["titulo"] else c.titulo)
      && c'.descricao == (if "descricao" in b then b["descricao"] else c.descricao)
      && c'.status == (if "status" in b then b["status"] else c.status)
      && out.response.body == WithCase(UpdateOk, c')
  {
    if id !in st then Handled(Response(404, Message(CaseNotFound)), st)
    else
      var c := ApplyCaseUpdate(st[id], b);
      Handled(Response(200, WithCase(UpdateOk, c)), st[id := c])
  }

  /** `addEvidenceToCase`: 404 unless both the case and the evidence named
      by `evidenceId` exist; then the id is appended to that case only. The
      save re-validates the whole case, so a case an earlier update left
      invalid gives 500 and is not changed. */
  function AddEvidenceToCase(cases: CaseStore, evidences: map<ObjectId, EvidenceModel.Evidence>,
                             id: ObjectId, b: JsonBody): (out: Handled<Body, CaseStore>)
    ensures id !in cases || "evidenceId" !in b || b["evidenceId"] !in evidences ==>
      out == Handled(Response(404, Message(LinkNotFound)), cases)
    ensures out.response.status != 200 ==> out.store == cases
    ensures out.response.status == 200 <==>
      id in cases && "evidenceId" in b && b["evidenceId"] in evidences
      && ValidCase(AddEvidence(cases[id], b["evidenceId"]))
    ensures out.response.status == 200 ==>
      && out.store.Keys == cases.Keys
      && (forall k :: k in cases && k != id ==> out.store[k] == cases[k])
      && out.store[id].evidencias == cases[id].evidencias + [b["evidenceId"]]
      && out.store[id].(evidencias := cases[id].evidencias) == cases[id]
  {
    if id !in cases || "evidenceId" !in b || b["evidenceId"] !in evidences then
      Handled(Response(404, Message(LinkNotFound)), cases)
    else
      var c := AddEvidence(cases[id], b["evidenceId"]);
      match Save(c)
      case Err(_) => Handled(Response(500, Message(LinkFailed)), cases)
      case Ok(saved) => Handled(Response(200, WithCase(LinkOk, saved)), cases[id := saved])
  }

  /** `closeCase`: 404 for an unknown id; otherwise `updateStatus("Finalizado")`,
      which sets the status and stamps the closing date, then the save. */
  function CloseCase(st: CaseStore, id: ObjectId, now: Date): (out: Handled<Body, CaseStore>)
    ensures id !in st ==> out == Handled(Response(404, Message(CaseNotFound)), st)
    ensures out.response.status != 200 ==> out.store == st
    ensures out.response.status == 200 <==> id in st && st[id].titulo != "" && st[id].descricao != ""
    ensures out.response.status == 200 ==>
      && out.store.Keys == st.Keys
      && (forall k :: k in st && k != id ==> out.store[k] == st[k])
      && out.store[id].status == Finalizado
      && out.store[id].dataFechamento == Some(now)
      && out.store[id].evidencias == st[id].evidencias
  {
    if id !in st then Handled(Response(404, Message(CaseNotFound)), st)
    else
      var c := UpdateStatus(st[id], Finalizado, now);
      match Save(c)
      case Err(_) => Handled(Response(500, Message(CloseFailed)), st)
      case Ok(saved) => Handled(Response(200, WithCase(CloseOk, saved)), st[id := saved])
  }

  /** A case made by `createCase` and changed only by `addEvidenceToCase`
      and `closeCase` keeps its status in the enumeration. */
  lemma ValidatedHandlersKeepStatus(st: CaseStore, id: ObjectId, evidences: map<ObjectId, EvidenceModel.Evidence>,
                                    b: JsonBody, now: Date)
    requires id in st && st[id].status in StatusValues
    ensures var out := AddEvidenceToCase(st, evidences, id, b); out.store[id].status in StatusValues
    ensures var out := CloseCase(st, id, now); out.store[id].status in StatusValues
  {
  }

  /** `updateCase` is the one handler that skips validation: any string
      can become the status. */
  lemma UpdateCaseCanLeaveEnum(st: CaseStore, id: ObjectId, s: string)
    requires id in st && s !in StatusValues
    ensures UpdateCase(st, id, map["status" := s]).response.status == 200
    ensures UpdateCase(st, id, map["status" := s]).store[id].status !in StatusValues
  {
  }

  /** A case holding a status outside the enumeration can no longer take
      evidence: the save fails with 500 and the case stays as it was. */
  lemma InvalidStatusBlocksLinking(st: CaseStore, evidences: map<ObjectId, EvidenceModel.Evidence>,
                                   id: ObjectId, e: ObjectId)
    requires id in st && st[id].status !in StatusValues && e in evidences
    ensures AddEvidenceToCase(st, evidences, id, map["evidenceId" := e])
      == Handled(Response(500, Message(LinkFailed)), st)
  {
  }
}

=== FILE: case_model.dfy ===
/** The `Case` schema and its three document methods: `addEvidence`,
    `updateStatus` and `generateReport`. */
module CaseModel {
  import opened Wrappers
  import opened Documents

  const EmAndamento: string := "Em andamento"
  const Finalizado: string := "Finalizado"
  const Arquivado: string := "Arquivado"

  /** The status enumeration; a new case starts with the first value. */
  const StatusValues: seq<string> := [EmAndamento, Finalizado, Arquivado]

  /** A stored case. `status` is a plain string because an update that
      skips validation can store any string there. */
  datatype Case = Case(
    id: ObjectId,
    titulo: string,
    descricao: string,
    status: string,
    dataAbertura: Date,
    dataFechamento: Option<Date>,
    evidencias: seq<ObjectId>)

  /** The validators `save()` runs on a case, in schema order. */
  function Violations(c: Case): seq<SchemaError> {
    (if c.titulo != "" then [] else [Required("titulo")])
    + (if c.descricao != "" then [] else [Required("descricao")])
    + (if c.status in StatusValues then [] else [NotInEnum("status", c.status)])
  }

  /** What `save()` accepts. */
  predicate ValidCase(c: Case) {
    c.titulo != "" && c.descricao != "" && c.status in StatusValues
  }

  /** `save()` of a loaded case: the document itself, or the validators it fails. */
  function Save(c: Case): (r: Result<Case, seq<SchemaError>>)
    ensures r.Ok? <==> ValidCase(c)
    ensures r.Ok? ==> r.value == c
    ensures r.Err? ==> |r.error| > 0
  {
    var errors := Violations(c);
    if errors == [] then Ok(c) else Err(errors)
  }

  /** `new Case({ titulo, descricao })` and its first `save()`: the defaults
      fill the status, the opening date and the empty evidence list. */
  function NewCase(id: ObjectId, titulo: Option<string>, descricao: Option<string>, now: Date)
    : (r: Result<Case, seq<SchemaError>>)
    ensures r.Ok? <==> RequiredString(titulo) && RequiredString(descricao)
    ensures r.Ok? ==> ValidCase(r.value)
    ensures r.Ok? ==>
      && r.value.id == id && r.value.titulo == titulo.value && r.value.descricao == descricao.value
      && r.value.status == EmAndamento && r.value.dataAbertura == now
      && r.value.dataFechamento.None? && r.value.evidencias == []
    ensures r.Err? ==> |r.error| > 0
  {
    var errors :=
      (if RequiredString(titulo) then [] else [Required("titulo")])
      + (if RequiredString(descricao) then [] else [Required("descricao")]);
    if errors == [] then Ok(Case(id, titulo.value, descricao.value, EmAndamento, now, None, []))
    else Err(errors)
  }

  /** `addEvidence` before its `save()`: pushes the id, even one already listed. */
  function AddEvidence(c: Case, evidenceId: ObjectId): (r: Case)
    ensures |r.evidencias| == |c.evidencias| + 1
    ensures r.evidencias[..|c.evidencias|] == c.evidencias
    ensures r.evidencias[|c.evidencias|] == evidenceId
    ensures multiset(r.evidencias)[evidenceId] == multiset(c.evidencias)[evidenceId] + 1
    ensures r.(evidencias := c.evidencias) == c
  {
    c.(evidencias := c.evidencias + [evidenceId])
  }

  /** `updateStatus` before its `save()`: the closing date is stamped only
      when the new status is `Finalizado`. */
  function UpdateStatus(c: Case, novoStatus: string, now: Date): (r: Case)
    ensures r.status == novoStatus
    ensures novoStatus == Finalizado ==> r.dataFechamento == Some(now)
    ensures novoStatus != Finalizado ==> r.dataFechamento == c.dataFechamento
    ensures r.(status := c.status, dataFechamento := c.dataFechamento) == c
  {
    if novoStatus == Finalizado then c.(status := novoStatus, dataFechamento := Some(now))
    else c.(status := novoStatus)
  }

  /** A valid case stays valid under `updateStatus` exactly when the new
      status is in the enumeration; otherwise its `save()` fails. */
  lemma UpdateStatusValidity(c: Case, s: string, now: Date)
    requires ValidCase(c)
    ensures ValidCase(UpdateStatus(c, s, now)) <==> s in StatusValues
  {
  }

  datatype Report = Report(
    titulo: string,
    descricao: string,
    status: string,
    dataAbertura: Date,
    dataFechamento: Option<Date>,
    totalEvidencias: nat)

  /** `generateReport`: the case's main data and how many evidence ids it lists. */
  function GenerateReport(c: Case): (r: Report)
    ensures r.totalEvidencias == |c.evidencias|
    ensures r.status == c.status && r.dataFechamento == c.dataFechamento
    ensures r.titulo == c.titulo && r.descricao == c.descricao && r.dataAbertura == c.dataAbertura
  {
    Report(c.titulo, c.descricao, c.status, c.dataAbertura, c.dataFechamento, |c.evidencias|)
  }

  /** The report shows how many evidence ids a case lists, not which: two
      cases that differ only in the ids, not in their number, report alike. */
  lemma ReportIgnoresEvidenceIds(c: Case, ids: seq<ObjectId>)
    requires |ids| == |c.evidencias|
    ensures GenerateReport(c.(evidencias := ids)) == GenerateReport(c)
  {
  }

  /** Adding evidence raises the report's count by one and leaves every
      other report field as it was. */
  lemma ReportAfterAddEvidence(c: Case, e: ObjectId)
    ensures GenerateReport(AddEvidence(c, e)).totalEvidencias == GenerateReport(c).totalEvidencias + 1
    ensures GenerateReport(AddEvidence(c, e)).(totalEvidencias := |c.evidencias|) == GenerateReport(c)
  {
  }

  /** After `updateStatus` the report shows the new status; after closing,
      it shows the closing date; the count never changes. */
  lemma ReportAfterUpdateStatus(c: Case, s: string, now: Date)
    ensures GenerateReport(UpdateStatus(c, s, now)).status == s
    ensures GenerateReport(UpdateStatus(c, s, now)).totalEvidencias == |c.evidencias|
    ensures s == Finalizado ==> GenerateReport(UpdateStatus(c, s, now)).dataFechamento == Some(now)
  {
  }
}

=== FILE: documents.dfy ===
/** What the models share with the document database: identifiers, dates
    and the validation errors a schema reports when a document is saved. */
module Documents {
  import opened Wrappers

  /** A document identifier, as it travels in JSON. */
  type ObjectId = string

  /** A point in time in milliseconds, as `Date.now()` returns it. */
  type Date = int

  /** One failed schema validator, named by the path it guards. */
  datatype SchemaError =
    | Required(path: string)
    | NotInEnum(path: string, value: string)
    | NoMatch(path: string, value: string)

  /** The schema's `required` check for a `String` path: present and non-empty. */
  predicate RequiredString(v: Option<string>) {
    v.Some? && v.value != ""
  }
}

=== FILE: evidence_controller.dfy ===
/** `EvidenceController`: create, read, update and delete over the evidence
    collection. The evidence router puts the authentication gate in front
    of each of them; `createEvidence` takes the collector's id from the
    claims the gate attaches. */
module EvidenceController {
  import opened Wrappers
  import opened Http
  import opened Documents
  import opened Jwt
  import opened EvidenceModel
  import AuthMiddleware

  type EvidenceStore = map<ObjectId, Evidence>

  datatype Body =
    | Message(message: string)
    | EvidenceDoc(doc: Evidence)
    | WithEvidence(message: string, doc: Evidence)

  const NotFound: string := "Evidência não encontrada"
  const CreateOk: string := "Evidência criada com sucesso"
  const CreateFailed: string := "Erro ao criar evidência"
  const UpdateOk: string := "Evidência atualizada com sucesso"
  const DeleteOk: string := "Evidência removida com sucesso"

  /** The fields `createEvidence` reads from the body. */
  function BodyFields(b: JsonBody): EvidenceFields {
    EvidenceFields(Field(b, "tipo"), Field(b, "descricao"), Field(b, "imagemURL"), Field(b, "conteudo"))
  }

  /** `createEvidence`: the collector is the authenticated user whatever the
      body says; a record the schema accepts is added with 201, otherwise
      the save throws and the answer is 500. */
  function CreateEvidence(st: EvidenceStore, b: JsonBody, user: Claims, newId: ObjectId, now: Date)
    : (out: Handled<Body, EvidenceStore>)
    requires newId !in st
    ensures out.response.status == 201 <==> NewEvidence(newId, BodyFields(b), Some(user.id), now).Ok?
    ensures out.response.status != 201 ==> out == Handled(Response(500, Message(CreateFailed)), st)
    ensures out.response.status == 201 ==>
      && newId in out.store && out.store - {newId} == st
      && var e := out.store[newId];
      && e.coletadoPor == user.id && e.tipo == b["tipo"] && e.descricao == b["descricao"]
      && e.dataColeta == now && ValidEvidence(e)
      && out.response.body == WithEvidence(CreateOk, e)
  {
    match NewEvidence(newId, BodyFields(b), Some(user.id), now)
    case Err(_) => Handled(Response(500, Message(CreateFailed)), st)
    case Ok(e) =>
      assert st[newId := e] - {newId} == st;
      Handled(Response(201, WithEvidence(CreateOk, e)), st[newId := e])
  }

  /** A `coletadoPor` in the body changes nothing about the outcome. */
  lemma CollectorComesFromToken(st: EvidenceStore, b: JsonBody, forged: ObjectId, user: Claims,
                                newId: ObjectId, now: Date)
    requires newId !in st
    ensures CreateEvidence(st, b["coletadoPor" := forged], user, newId, now) == CreateEvidence(st, b, user, newId, now)
  {
    assert BodyFields(b["coletadoPor" := forged]) == BodyFields(b);
  }

  /** `POST /` behind the gate: a denied request never reaches the handler
      and leaves the store alone; a passed one is handled with `req.user`. */
  function CreateEvidenceRoute(st: EvidenceStore, req: AuthMiddleware.Request<JsonBody>,
                               verify: Verifier, newId: ObjectId, now: Date): (out: Handled<Body, EvidenceStore>)
    requires newId !in st
    ensures AuthMiddleware.Gate(req, verify).Denied? ==>
      && out.store == st
      && out.response.status == AuthMiddleware.Gate(req, verify).response.status
      && out.response.status in {400, 401}
    ensures AuthMiddleware.Gate(req, verify).Next? ==>
      var user := AuthMiddleware.Gate(req, verify).request.user.value;
      out == CreateEvidence(st, req.body, user, newId, now) && out.store.Keys <= st.Keys + {newId}
  {
    match AuthMiddleware.Gate(req, verify)
    case Denied(r) => Handled(Response(r.status, Message(r.body)), st)
    case Next(passed) => CreateEvidence(st, passed.body, passed.user.value, newId, now)
  }

  /** `getEvidenceById`. */
  function GetEvidenceById(st: EvidenceStore, id: ObjectId): (r: Response<Body>)
    ensures id !in st ==> r == Response(404, Message(NotFound))
    ensures id in st ==> r == Response(200, EvidenceDoc(st[id]))
  {
    if id in st then Response(200, EvidenceDoc(st[id])) else Response(404, Message(NotFound))
  }

  /** The `{ descricao, imagemURL, conteudo }` update; absent fields are
      dropped from it. */
  function ApplyEvidenceUpdate(e: Evidence, b: JsonBody): Evidence {
    e.(descricao := if "descricao" in b then b["descricao"] else e.descricao,
       imagemURL := if "imagemURL" in b then Some(b["imagemURL"]) else e.imagemURL,
       conteudo := if "conteudo" in b then Some(b["conteudo"]) else e.conteudo)
  }

  /** `updateEvidence` (`findByIdAndUpdate`, no validators): only the three
      content fields can change; the type, the collector and the collection
      date stay whatever the body holds. */
  function UpdateEvidence(st: EvidenceStore, id: ObjectId, b: JsonBody): (out: Handled<Body, EvidenceStore>)
    ensures id !in st ==> out == Handled(Response(404, Message(NotFound)), st)
    ensures id in st ==>
      && out.response.status == 200
      && out.store.Keys == st.Keys
      && (forall k :: k in st && k != id ==> out.store[k] == st[k])
      && var e, e' := st[id], out.store[id];
      && e'.id == e.id && e'.tipo == e.tipo && e'.coletadoPor == e.coletadoPor && e'.dataColeta == e.dataColeta
      && e'.descricao == (if "descricao" in b then b["descricao"] else e.descricao)
      && e'.imagemURL == (if "imagemURL" in b then Some(b["imagemURL"]) else e.imagemURL)
      && e'.conteudo == (if "conteudo" in b then Some(b["conteudo"]) else e.conteudo)
      && out.response.body == WithEvidence(UpdateOk, e')
  {
    if id !in st then Handled(Response(404, Message(NotFound)), st)
    else
      var e := ApplyEvidenceUpdate(st[id], b);
      Handled(Response(200, WithEvidence(UpdateOk, e)), st[id := e])
  }

  /** Without validation an update can blank an image's URL, which the
      schema would have refused on creation. */
  lemma UpdateCanBreakContentRule(st: EvidenceStore, id: ObjectId)
    requires id in st && st[id].tipo == Imagem
    ensures !ValidEvidence(UpdateEvidence(st, id, map["imagemURL" := ""]).store[id])
  {
  }

  /** `deleteEvidence`: 404 for an unknown id, otherwise exactly that record
      goes. Cases are a different collection and keep listing the id. */
  function DeleteEvidence(st: EvidenceStore, id: ObjectId): (out: Handled<Body, EvidenceStore>)
    ensures id !in st ==> out == Handled(Response(404, Message(NotFound)), st)
    ensures id in st ==>
      out.response == Response(200, Message(DeleteOk)) && out.store.Keys == st.Keys - {id}
      && forall k :: k in out.store ==> out.store[k] == st[k]
  {
    if id !in st then Handled(Response(404, Message(NotFound)), st)
    else Handled(Response(200, Message(DeleteOk)), st - {id})
  }

  /** After a delete the record is gone: a later read gives 404, and a
      second delete does too. */
  lemma DeleteThenGetIsNotFound(st: EvidenceStore, id: ObjectId)
    requires id in st
    ensures GetEvidenceById(DeleteEvidence(st, id).store, id) == Response(404, Message(NotFound))
    ensures DeleteEvidence(DeleteEvidence(st, id).store, id).response.status == 404
  {
  }
}

=== FILE: evidence_model.dfy ===
/** The `Evidence` schema: the type enumeration and the content field each
    type requires. */
module EvidenceModel {
  import opened Wrappers
  import opened Documents

  const Imagem: string := "Imagem"
  const Texto: string := "Texto"
  const TipoValues: seq<string> := [Imagem, Texto]

  datatype Evidence = Evidence(
    id: ObjectId,
    tipo: string,
    descricao: string,
    dataColeta: Date,
    coletadoPor: ObjectId,
    imagemURL: Option<string>,
    conteudo: Option<string>)

  /** The body fields handed to `new Evidence({ ... })`; the collector is
      passed on its own. */
  datatype EvidenceFields = EvidenceFields(
    tipo: Option<string>, descricao: Option<string>, imagemURL: Option<string>, conteudo: Option<string>)

  /** The validators that fail on save, one per path, in schema order.
      `coletadoPor` is required; `imagemURL` is required only of images and
      `conteudo` only of texts; neither is forbidden for the other type. */
  function Violations(f: EvidenceFields, coletadoPor: Option<ObjectId>): seq<SchemaError> {
    (if !RequiredString(f.tipo) then [Required("tipo")]
     else if f.tipo.value !in TipoValues then [NotInEnum("tipo", f.tipo.value)]
     else [])
    + (if RequiredString(f.descricao) then [] else [Required("descricao")])
    + (if coletadoPor.Some? then [] else [Required("coletadoPor")])
    + (if f.tipo == Some(Imagem) && !RequiredString(f.imagemURL) then [Required("imagemURL")] else [])
    + (if f.tipo == Some(Texto) && !RequiredString(f.conteudo) then [Required("conteudo")] else [])
  }

  /** What every evidence record satisfies when it is first saved. */
  predicate ValidEvidence(e: Evidence) {
    && e.tipo in TipoValues
    && e.descricao != ""
    && (e.tipo == Imagem ==> RequiredString(e.imagemURL))
    && (e.tipo == Texto ==> RequiredString(e.conteudo))
  }

  /** `new Evidence({ ..., coletadoPor })` and `save()`: the record with its
      collection date defaulted, or the validators it fails. An absent
      collector (`undefined`) fails `required`. */
  function NewEvidence(id: ObjectId, f: EvidenceFields, coletadoPor: Option<ObjectId>, now: Date)
    : (r: Result<Evidence, seq<SchemaError>>)
    ensures r.Ok? <==>
      && f.tipo.Some? && f.tipo.value in TipoValues
      && RequiredString(f.descricao)
      && coletadoPor.Some?
      && (f.tipo.value == Imagem ==> RequiredString(f.imagemURL))
      && (f.tipo.value == Texto ==> RequiredString(f.conteudo))
    ensures r.Ok? ==> ValidEvidence(r.value)
    ensures r.Ok? ==>
      && r.value.id == id && r.value.tipo == f.tipo.value && r.value.descricao == f.descricao.value
      && r.value.dataColeta == now && r.value.coletadoPor == coletadoPor.value
      && r.value.imagemURL == f.imagemURL && r.value.conteudo == f.conteudo
    ensures r.Err? ==> |r.error| > 0
  {
    var errors := Violations(f, coletadoPor);
    if errors == [] then
      Ok(Evidence(id, f.tipo.value, f.descricao.value, now, coletadoPor.value, f.imagemURL, f.conteudo))
    else Err(errors)
  }

  /** A record of either type that carries both content fields is accepted. */
  lemma BothContentsAccepted(id: ObjectId, tipo: string, d: string, url: string, text: string,
                             collector: ObjectId, now: Date)
    requires tipo in TipoValues && d != "" && url != "" && text != ""
    ensures NewEvidence(id, EvidenceFields(Some(tipo), Some(d), Some(url), Some(text)), Some(collector), now).Ok?
  {
  }

  /** An image without a URL and a text without content are refused. */
  lemma MissingContentRefused(id: ObjectId, d: string, other: Option<string>, collector: ObjectId, now: Date)
    ensures NewEvidence(id, EvidenceFields(Some(Imagem), Some(d), None, other), Some(collector), now).Err?
    ensures NewEvidence(id, EvidenceFields(Some(Texto), Some(d), other, None), Some(collector), now).Err?
  {
  }

  /** Without a collector no record is saved, however complete the other
      fields are, and the failure names `coletadoPor`. */
  lemma MissingCollectorRefused(id: ObjectId, f: EvidenceFields, now: Date)
    ensures NewEvidence(id, f, None, now).Err?
    ensures Required("coletadoPor") in NewEvidence(id, f, None, now).error
  {
  }
}

=== FILE: http.dfy ===
/** The HTTP surface the handlers see: a JSON request body, a response with
    a status code, and a handler's result paired with the store it leaves. */
module Http {
  import opened Wrappers

  /** A parsed JSON request body whose fields all hold strings. */
  type JsonBody = map<string, string>

  /** Destructuring one field of `req.body`: `None` when it is absent. */
  function Field(b: JsonBody, name: string): (v: Option<string>)
    ensures v.Some? <==> name in b
    ensures v.Some? ==> v.value == b[name]
  {
    if name in b then Some(b[name]) else None
  }

  datatype Response<B> = Response(status: nat, body: B)

  /** A handler's response together with the store after the request. */
  datatype Handled<B, S> = Handled(response: Response<B>, store: S)
}

=== FILE: js_string.dfy ===
/** The JavaScript string built-ins the server relies on: the whitespace
    class `\s` (the same characters `String.prototype.trim` removes), `trim`,
    `toLowerCase` and `replace` with a string pattern and empty replacement. */
module JsString {
  import opened Wrappers

  /** The characters matched by `\s` and stripped by `trim`: the ECMAScript
      WhiteSpace and LineTerminator code points. */
  predicate IsWhitespace(c: char) {
    || c == ' ' || c == '\t' || c == '\n' || c == '\U{B}' || c == '\U{C}' || c == '\r'
    || c == '\U{A0}' || c == '\U{1680}' || ('\U{2000}' <= c <= '\U{200A}')
    || c == '\U{2028}' || c == '\U{2029}' || c == '\U{202F}' || c == '\U{205F}'
    || c == '\U{3000}' || c == '\U{FEFF}'
  }

  predicate NoWhitespace(s: string) {
    forall k :: 0 <= k < |s| ==> !IsWhitespace(s[k])
  }

  predicate AllWhitespace(s: string) {
    forall k :: 0 <= k < |s| ==> IsWhitespace(s[k])
  }

  /** Neither starts nor ends with whitespace. */
  predicate Trimmed(s: string) {
    s == [] || (!IsWhitespace(s[0]) && !IsWhitespace(s[|s| - 1]))
  }

  /** The number of whitespace characters `s` starts with. */
  function LeadingSpace(s: string): (n: nat)
    ensures n <= |s|
    ensures AllWhitespace(s[..n])
    ensures n < |s| ==> !IsWhitespace(s[n])
  {
    if |s| == 0 || !IsWhitespace(s[0]) then 0
    else
      var m := LeadingSpace(s[1..]);
      assert s[..1 + m] == [s[0]] + s[1..][..m];
      1 + m
  }

  /** The number of whitespace characters `s` ends with. */
  function TrailingSpace(s: string): (n: nat)
    ensures n <= |s|
    ensures AllWhitespace(s[|s| - n..])
    ensures n < |s| ==> !IsWhitespace(s[|s| - n - 1])
  {
    if |s| == 0 || !IsWhitespace(s[|s| - 1]) then 0
    else
      var t := s[..|s| - 1];
      var m := TrailingSpace(t);
      assert s[|s| - (1 + m)..] == t[|t| - m..] + [s[|s| - 1]];
      1 + m
  }

  /** `String.prototype.trim`: `s` with its leading and trailing whitespace
      removed and nothing else changed. */
  function Trim(s: string): (r: string)
    ensures Trimmed(r)
    ensures |r| <= |s|
  {
    var i := LeadingSpace(s);
    var rest := s[i..];
    var n := TrailingSpace(rest);
    var j := |s| - n;
    assert s[i..j] == rest[..|rest| - n];
    s[i..j]
  }

  /** What `trim` removes is whitespace, and only from the two ends: the
      result is the slice of `s` between a whitespace prefix and a
      whitespace suffix. */
  lemma TrimRemovesOnlyOuterSpace(s: string)
    ensures exists i, j ::
      0 <= i <= j <= |s| && Trim(s) == s[i..j] && AllWhitespace(s[..i]) && AllWhitespace(s[j..])
  {
    var i := LeadingSpace(s);
    var rest := s[i..];
    var n := TrailingSpace(rest);
    var j := |s| - n;
    assert s[j..] == rest[|rest| - n..];
    assert Trim(s) == s[i..j];
  }

  /** Trimming a string without outer whitespace gives it back. */
  lemma TrimTrimmed(s: string)
    requires Trimmed(s)
    ensures Trim(s) == s
  {
    var i := LeadingSpace(s);
    var n := TrailingSpace(s[i..]);
  }

  /** `toLowerCase` on one character, for the ASCII letters. */
  function LowerChar(c: char): char {
    if 'A' <= c <= 'Z' then (c as int + 32) as char else c
  }

  predicate IsLowerCase(s: string) {
    forall k :: 0 <= k < |s| ==> !('A' <= s[k] <= 'Z')
  }

  /** `String.prototype.toLowerCase`, restricted to the ASCII letters. */
  function ToLowerCase(s: string): (r: string)
    ensures |r| == |s|
    ensures forall k :: 0 <= k < |s| ==> r[k] == LowerChar(s[k])
  {
    if s == [] then [] else [LowerChar(s[0])] + ToLowerCase(s[1..])
  }

  /** Lower-casing yields a lower-case string, keeps whitespace exactly where
      it was, and changes nothing in a string that is already lower case. */
  lemma ToLowerCaseFacts(s: string)
    ensures IsLowerCase(ToLowerCase(s))
    ensures forall k :: 0 <= k < |s| ==> (IsWhitespace(ToLowerCase(s)[k]) <==> IsWhitespace(s[k]))
    ensures IsLowerCase(s) ==> ToLowerCase(s) == s
  {
    var r := ToLowerCase(s);
    forall k | 0 <= k < |r|
      ensures !('A' <= r[k] <= 'Z') && (IsWhitespace(r[k]) <==> IsWhitespace(s[k]))
    {
      LowerCharFacts(s[k]);
    }
    if IsLowerCase(s) {
      forall k | 0 <= k < |s| ensures r[k] == s[k] {
        LowerCharFacts(s[k]);
      }
    }
  }

  /** Lower-casing one character never yields an upper-case ASCII letter,
      keeps whitespace, and fixes every character that is not an upper-case
      ASCII letter. */
  lemma LowerCharFacts(c: char)
    ensures !('A' <= LowerChar(c) <= 'Z')
    ensures IsWhitespace(LowerChar(c)) <==> IsWhitespace(c)
    ensures !('A' <= c <= 'Z') ==> LowerChar(c) == c
  {
  }

  /** `pat` sits in `s` starting at index `k`. */
  predicate OccursAt(s: string, pat: string, k: int) {
    0 <= k && k + |pat| <= |s| && s[k..k + |pat|] == pat
  }

  /** `k` is the leftmost index at which `pat` occurs in `s`. */
  predicate FirstOccurrence(s: string, pat: string, k: int) {
    OccursAt(s, pat, k) && forall m :: 0 <= m < k ==> !OccursAt(s, pat, m)
  }

  /** `String.prototype.indexOf(pat, from)`: the leftmost occurrence of
      `pat` at or after `from`, or `None` when there is none. */
  function IndexOf(s: string, pat: string, from: nat): (r: Option<nat>)
    decreases |s| - from
    ensures r.Some? ==> from <= r.value && OccursAt(s, pat, r.value)
    ensures r.Some? ==> forall k :: from <= k < r.value ==> !OccursAt(s, pat, k)
    ensures r.None? ==> forall k :: from <= k ==> !OccursAt(s, pat, k)
  {
    if from + |pat| > |s| then None
    else if s[from..from + |pat|] == pat then Some(from)
    else IndexOf(s, pat, from + 1)
  }

  /** `s.replace(pat, "")` with a string pattern: removes the leftmost
      occurrence of `pat` only, wherever it is, and leaves `s` alone when
      `pat` does not occur. */
  function RemoveFirst(s: string, pat: string): (r: string)
    ensures (forall k :: !OccursAt(s, pat, k)) ==> r == s
    ensures forall k :: FirstOccurrence(s, pat, k) ==> r == s[..k] + s[k + |pat|..]
  {
    match IndexOf(s, pat, 0)
    case None => s
    case Some(k) =>
      assert FirstOccurrence(s, pat, k);
      assert forall k' :: FirstOccurrence(s, pat, k') ==> k' == k;
      s[..k] + s[k + |pat|..]
  }

  /** A string that starts with `pat` loses exactly that prefix. */
  lemma RemoveFirstPrefix(pat: string, t: string)
    ensures RemoveFirst(pat + t, pat) == t
  {
    var s := pat + t;
    assert s[0..|pat|] == pat;
    assert FirstOccurrence(s, pat, 0);
    assert s[|pat|..] == t;
  }
}

=== FILE: jwt.dfy ===
/** The token library seen from the server: the claims it signs, the
    lifetimes the two login flows ask for, and the secret's configuration.
    Signing and verifying are cryptography and reach the model as
    uninterpreted function parameters of these types. */
module Jwt {
  import opened Wrappers
  import opened Documents

  type Token = string

  /** The payload both login flows sign: `{ id, nome, email, role }`. The
      `iat` and `exp` fields the library adds on signing are not kept. */
  datatype Claims = Claims(id: ObjectId, nome: string, email: string, role: string)

  /** `jwt.sign(claims, secret, { expiresIn })`, lifetime in seconds. */
  type Signer = (Claims, string, nat) -> Token

  /** `jwt.verify(token, secret)` with the server's secret fixed: the
      decoded claims, or `None` where the library throws. */
  type Verifier = Token -> Option<Claims>

  /** `expiresIn: "3h"`. */
  const ThreeHours: nat := 3 * 60 * 60

  /** `expiresIn: "1h"`. */
  const OneHour: nat := 60 * 60

  /** `process.env.JWT_SECRET` is truthy: defined and not empty. */
  predicate SecretConfigured(secret: Option<string>) {
    secret.Some? && secret.value != ""
  }
}

=== FILE: scenarios.dfy ===
/** Facts that span several handlers: a registration, login and profile
    round trip through the routers, and what deleting evidence does
    to the cases that list it. */
module Scenarios {
  import opened Wrappers
  import opened Http
  import opened Documents
  import opened Jwt
  import opened Validation
  import opened UserModel
  import UserController
  import UserRoutes
  import AuthRoutes
  import AuthMiddleware
  import CaseController
  import EvidenceController

  /** Register, log in with the same email and password, and present the
      token as `Bearer <token>`: the profile shows the new user's id and
      normalised email. The token library is assumed to give back the
      claims it signed, and the hasher's comparison to accept a password
      against its own digest. */
  lemma RegisterLoginPerfil(st: UserStore, nome: string, email: string, senha: string, role: string,
                            newId: ObjectId, isEmail: string -> bool, hash: string -> string,
                            compare: (string, string) -> bool, secret: Option<string>, sign: Signer,
                            verify: Verifier, req: AuthMiddleware.Request<JsonBody>)
    requires !isEmail("")
    requires compare(senha, hash(senha))
    requires SecretConfigured(secret)
    requires forall c, ttl :: sign(c, secret.value, ttl) != "" && verify(sign(c, secret.value, ttl)) == Some(c)
    ensures
      var b := map["nome" := nome, "email" := email, "senha" := senha, "role" := role];
      var d := UserRoutes.PostRegister(st, b, isEmail, newId, hash);
      d.Invoked? && d.result.response.status == 201 ==>
      var st1 := d.result.store;
      var login := UserRoutes.PostLogin(st1, map["email" := email, "senha" := senha], isEmail, compare, secret, sign);
      && login.Invoked? && login.result.status == 200 && login.result.body.LoggedIn?
      && var token := login.result.body.token;
      && var profile := AuthRoutes.Perfil(req.(authorization := Some(AuthMiddleware.BearerPrefix + token)), verify);
      && profile.status == 200
      && profile.body.user.id == newId
      && profile.body.user.email == NormalizeEmail(email)
  {
    var b := map["nome" := nome, "email" := email, "senha" := senha, "role" := role];
    var d := UserRoutes.PostRegister(st, b, isEmail, newId, hash);
    if d.Invoked? && d.result.response.status == 201 {
      var st1 := d.result.store;
      RegisteredThroughRouter(st, nome, email, senha, role, newId, isEmail, hash);
      var u := st1[NormalizeEmail(email)];
      LoggedInThroughRouter(st1, email, senha, isEmail, compare, secret, sign);
      var token := sign(ClaimsOf(u), secret.value, ThreeHours);
      AuthRoutes.PerfilEchoesClaims(req, verify, token, ClaimsOf(u));
    }
  }

  /** What a registration that the router accepted and that succeeded
      leaves in the store. */
  lemma RegisteredThroughRouter(st: UserStore, nome: string, email: string, senha: string, role: string,
                                newId: ObjectId, isEmail: string -> bool, hash: string -> string)
    requires !isEmail("")
    ensures var b := map["nome" := nome, "email" := email, "senha" := senha, "role" := role];
      var d := UserRoutes.PostRegister(st, b, isEmail, newId, hash);
      d.Invoked? && d.result.response.status == 201 ==>
      var st1 := d.result.store;
      && isEmail(email) && senha != ""
      && NormalizeEmail(email) in st1
      && st1[NormalizeEmail(email)].id == newId
      && st1[NormalizeEmail(email)].senha == hash(senha)
  {
    var b := map["nome" := nome, "email" := email, "senha" := senha, "role" := role];
    if UserRoutes.PostRegister(st, b, isEmail, newId, hash).Invoked? {
      assert RegisterErrors(b, isEmail) == [];
      assert Value(b, "email") == email && Value(b, "senha") == senha;
    }
  }

  /** A login the router lets through, for a stored user whose password
      matches, answers 200 with a three-hour token over the user's claims. */
  lemma LoggedInThroughRouter(st1: UserStore, email: string, senha: string, isEmail: string -> bool,
                              compare: (string, string) -> bool, secret: Option<string>, sign: Signer)
    requires !isEmail("") && isEmail(email) && senha != ""
    requires NormalizeEmail(email) in st1 && compare(senha, st1[NormalizeEmail(email)].senha)
    requires SecretConfigured(secret)
    ensures var login := UserRoutes.PostLogin(st1, map["email" := email, "senha" := senha], isEmail, compare, secret, sign);
      && login.Invoked? && login.result.status == 200 && login.result.body.LoggedIn?
      && login.result.body.token == sign(ClaimsOf(st1[NormalizeEmail(email)]), secret.value, ThreeHours)
  {
    var lb := map["email" := email, "senha" := senha];
    assert Value(lb, "email") == email && Value(lb, "senha") == senha;
    assert LoginErrors(lb, isEmail) == [];
  }

  /** Deleting an evidence record leaves every case as it was, so a case can
      keep listing an id that no longer exists; linking that id again then
      gives 404. */
  lemma DeletedEvidenceStaysListed(cases: CaseController.CaseStore, evidences: EvidenceController.EvidenceStore,
                                   caseId: ObjectId, e: ObjectId)
    requires caseId in cases && e in cases[caseId].evidencias && e in evidences
    ensures var after := EvidenceController.DeleteEvidence(evidences, e).store;
      && e !in after
      && e in cases[caseId].evidencias
      && CaseController.AddEvidenceToCase(cases, after, caseId, map["evidenceId" := e]).response.status == 404
  {
  }
}

=== FILE: user_controller.dfy ===
/** `UserController`, the registration and login flow the routers mount:
    409 for a taken email, 401 for bad credentials, a refusal to sign
    without a configured secret, and a three-hour token. */
module UserController {
  import opened Wrappers
  import opened Http
  import opened Documents
  import opened Jwt
  import opened UserModel

  datatype Body =
    | Message(message: string)
    | Registered(message: string, user: PublicUser)
    | LoggedIn(message: string, token: Token, user: PublicUser)

  const DuplicateEmail: string := "E-mail já cadastrado"
  const RegisterFailed: string := "Erro ao registrar usuário"
  const RegisterOk: string := "Usuário registrado com sucesso!"
  const BadCredentials: string := "E-mail ou senha incorretos"
  const InternalError: string := "Erro interno do servidor"
  const LoginFailed: string := "Erro ao fazer login"
  const LoginOk: string := "Login bem-sucedido"

  /** `register`: refuses a taken email with 409 before hashing; stores the
      validated user with the digest in place of the password and answers
      201 with the public fields; a missing password (the hasher throws) or
      a document the schema refuses gives 500. */
  function Register(st: UserStore, b: JsonBody, newId: ObjectId, hash: string -> string)
    : (out: Handled<Body, UserStore>)
    requires "email" in b
    ensures NormalizeEmail(b["email"]) in st ==> out == Handled(Response(409, Message(DuplicateEmail)), st)
    ensures out.response.status in {201, 409, 500}
    ensures out.response.status != 201 ==> out.store == st
    ensures out.response.status == 201 <==>
      && NormalizeEmail(b["email"]) !in st && "senha" in b
      && CreateUser(newId, FieldsFromBody(b, hash(b["senha"]))).Ok?
    ensures out.response.status == 201 ==>
      var key := NormalizeEmail(b["email"]);
      && "senha" in b && "nome" in b
      && key !in st && key in out.store && out.store - {key} == st
      && out.store[key].id == newId
      && out.store[key].nome == JsString.Trim(b["nome"])
      && out.store[key].senha == hash(b["senha"])
      && out.response.body == Registered(RegisterOk, Public(out.store[key]))
  {
    if NormalizeEmail(b["email"]) in st then Handled(Response(409, Message(DuplicateEmail)), st)
    else if "senha" !in b then Handled(Response(500, Message(RegisterFailed)), st)
    else match CreateUser(newId, FieldsFromBody(b, hash(b["senha"])))
      case Err(_) => Handled(Response(500, Message(RegisterFailed)), st)
      case Ok(u) =>
        assert st[u.email := u] - {u.email} == st;
        Handled(Response(201, Registered(RegisterOk, Public(u))), st[u.email := u])
  }

  /** A successful registration keeps the store's invariant when the new id
      is fresh. */
  lemma RegisterPreservesInvariant(st: UserStore, b: JsonBody, newId: ObjectId, hash: string -> string)
    requires StoreInvariant(st) && !IdInUse(st, newId) && "email" in b
    ensures StoreInvariant(Register(st, b, newId, hash).store)
  {
    var out := Register(st, b, newId, hash);
    if out.response.status == 201 {
      var r := CreateUser(newId, FieldsFromBody(b, hash(b["senha"])));
      var u := r.value;
      CreatedUserIsValid(newId, FieldsFromBody(b, hash(b["senha"])));
      assert out.store == st[u.email := u];
      InsertKeepsInvariant(st, u);
    }
  }

  /** Registering the same address again, in any letter case or with outer
      spaces, is refused with 409 and changes nothing. */
  lemma SecondRegistrationRefused(st: UserStore, b1: JsonBody, b2: JsonBody, id1: ObjectId, id2: ObjectId,
                                  hash: string -> string)
    requires "email" in b1 && "email" in b2
    requires NormalizeEmail(b1["email"]) == NormalizeEmail(b2["email"])
    ensures var first := Register(st, b1, id1, hash);
      first.response.status == 201 ==>
      Register(first.store, b2, id2, hash) == Handled(Response(409, Message(DuplicateEmail)), first.store)
  {
  }

  /** `login`: one 401 for an unknown email and for a wrong password; 500
      when the password is missing (the comparison throws) or no secret is
      configured; otherwise 200 with a three-hour token over the user's
      claims and the public fields. The store is never written. */
  function Login(st: UserStore, b: JsonBody, compare: (string, string) -> bool,
                 secret: Option<string>, sign: Signer): (r: Response<Body>)
    requires "email" in b
    ensures FindByEmail(st, b["email"]).None? ==> r == Response(401, Message(BadCredentials))
    ensures FindByEmail(st, b["email"]).Some? && "senha" in b
            && !compare(b["senha"], FindByEmail(st, b["email"]).value.senha) ==>
      r == Response(401, Message(BadCredentials))
    ensures FindByEmail(st, b["email"]).Some? && "senha" in b
            && compare(b["senha"], FindByEmail(st, b["email"]).value.senha) && !SecretConfigured(secret) ==>
      r == Response(500, Message(InternalError))
    ensures r.status == 200 <==>
      && FindByEmail(st, b["email"]).Some? && "senha" in b
      && compare(b["senha"], FindByEmail(st, b["email"]).value.senha) && SecretConfigured(secret)
    ensures r.status == 200 ==>
      var u := st[NormalizeEmail(b["email"])];
      r.body == LoggedIn(LoginOk, sign(ClaimsOf(u), secret.value, ThreeHours), Public(u))
  {
    match FindByEmail(st, b["email"])
    case None => Response(401, Message(BadCredentials))
    case Some(u) =>
      if "senha" !in b then Response(500, Message(LoginFailed))
      else if !compare(b["senha"], u.senha) then Response(401, Message(BadCredentials))
      else if !SecretConfigured(secret) then Response(500, Message(InternalError))
      else Response(200, LoggedIn(LoginOk, sign(ClaimsOf(u), secret.value, ThreeHours), Public(u)))
  }

  /** An unknown email and a wrong password cannot be told apart. */
  lemma LoginDoesNotRevealAccounts(st: UserStore, unknown: JsonBody, wrong: JsonBody,
                                   compare: (string, string) -> bool, secret: Option<string>, sign: Signer)
    requires "email" in unknown && FindByEmail(st, unknown["email"]).None?
    requires "email" in wrong && "senha" in wrong && FindByEmail(st, wrong["email"]).Some?
    requires !compare(wrong["senha"], FindByEmail(st, wrong["email"]).value.senha)
    ensures Login(st, unknown, compare, secret, sign) == Login(st, wrong, compare, secret, sign)
  {
  }
}

=== FILE: user_model.dfy ===
/** The `User` schema: field constraints, the setters applied on
    assignment, the email pattern, the JSON projection and the store of
    users that the unique index on `email` keeps. */
module UserModel {
  import opened Wrappers
  import opened JsString
  import opened Documents
  import opened Jwt
  import opened Http

  datatype Role = Admin | Perito | Assistente

  /** The role enumeration, in the order the schema lists it. */
  const RoleNames: seq<string> := ["Admin", "Perito", "Assistente"]

  /** The role a user gets when none is given. */
  const DefaultRole: Role := Perito

  function RoleName(r: Role): string {
    match r
    case Admin => "Admin"
    case Perito => "Perito"
    case Assistente => "Assistente"
  }

  /** Reads a role string; only the exact enumeration values are roles. */
  function ParseRole(s: string): (r: Option<Role>)
    ensures r.Some? <==> s in RoleNames
    ensures r.Some? ==> RoleName(r.value) == s
  {
    if s == "Admin" then Some(Admin)
    else if s == "Perito" then Some(Perito)
    else if s == "Assistente" then Some(Assistente)
    else None
  }

  /** Every role is written as an enumeration value and read back as itself. */
  lemma RoleRoundTrip(r: Role)
    ensures RoleName(r) in RoleNames
    ensures ParseRole(RoleName(r)) == Some(r)
  {
  }

  /** The pattern `^\S+@\S+\.\S+$`: no whitespace anywhere, and an `@` and a
      later `.` that cut the string into three non-empty pieces. */
  ghost predicate EmailShape(s: string) {
    && NoWhitespace(s)
    && exists i, j :: 1 <= i && i + 2 <= j && j + 2 <= |s| && s[i] == '@' && s[j] == '.'
  }

  /** Decides the email pattern in one left-to-right pass: the first `@`
      after the first character, then the first `.` at least two places
      after it, which must leave a character behind it. */
  function MatchesEmailShape(s: string): bool {
    && NoWhitespace(s)
    && match IndexOf(s, "@", 1)
       case None => false
       case Some(i) =>
         match IndexOf(s, ".", i + 2)
         case None => false
         case Some(j) => j + 2 <= |s|
  }

  lemma OccursAtChar(s: string, c: char, k: int)
    ensures OccursAt(s, [c], k) <==> 0 <= k < |s| && s[k] == c
  {
    if 0 <= k < |s| {
      assert s[k..k + 1] == [s[k]];
    }
  }

  /** The one-pass decision agrees with the pattern on every string. */
  lemma EmailShapeDecided(s: string)
    ensures MatchesEmailShape(s) <==> EmailShape(s)
  {
    if NoWhitespace(s) {
      match IndexOf(s, "@", 1)
      case None =>
        if EmailShape(s) {
          var i, j :| 1 <= i && i + 2 <= j && j + 2 <= |s| && s[i] == '@' && s[j] == '.';
          OccursAtChar(s, '@', i);
          assert false;
        }
      case Some(i) =>
        OccursAtChar(s, '@', i);
        match IndexOf(s, ".", i + 2)
        case None =>
          if EmailShape(s) {
            var i', j' :| 1 <= i' && i' + 2 <= j' && j' + 2 <= |s| && s[i'] == '@' && s[j'] == '.';
            OccursAtChar(s, '@', i');
            OccursAtChar(s, '.', j');
            assert false;
          }
        case Some(j) =>
          OccursAtChar(s, '.', j);
          if EmailShape(s) && j + 2 > |s| {
            var i', j' :| 1 <= i' && i' + 2 <= j' && j' + 2 <= |s| && s[i'] == '@' && s[j'] == '.';
            OccursAtChar(s, '@', i');
            OccursAtChar(s, '.', j');
            assert false;
          }
    }
  }

  /** `s` is `a@b.c` with three non-empty pieces. */
  predicate SplitsAsEmail(s: string, a: string, b: string, c: string) {
    |a| > 0 && |b| > 0 && |c| > 0 && s == a + "@" + b + "." + c
  }

  /** The pattern holds exactly of whitespace-free strings of the form
      `a@b.c` with `a`, `b` and `c` non-empty. */
  lemma EmailShapeSplits(s: string)
    ensures EmailShape(s) <==> NoWhitespace(s) && exists a, b, c :: SplitsAsEmail(s, a, b, c)
  {
    if EmailShape(s) {
      var i, j :| 1 <= i && i + 2 <= j && j + 2 <= |s| && s[i] == '@' && s[j] == '.';
      SplitAt(s, i, j);
      assert SplitsAsEmail(s, s[..i], s[i + 1..j], s[j + 1..]);
    }
    if NoWhitespace(s) && exists a, b, c :: SplitsAsEmail(s, a, b, c) {
      var a, b, c :| SplitsAsEmail(s, a, b, c);
      JoinAt(a, b, c);
      var i, j := |a|, |a| + 1 + |b|;
      assert 1 <= i && i + 2 <= j && j + 2 <= |s| && s[i] == '@' && s[j] == '.';
    }
  }

  lemma SplitAt(s: string, i: nat, j: nat)
    requires 1 <= i && i + 2 <= j && j + 2 <= |s| && s[i] == '@' && s[j] == '.'
    ensures s == s[..i] + "@" + s[i + 1..j] + "." + s[j + 1..]
  {
    assert s == s[..i] + [s[i]] + s[i + 1..j] + [s[j]] + s[j + 1..];
  }

  lemma JoinAt(a: string, b: string, c: string)
    ensures var s := a + "@" + b + "." + c;
      s[|a|] == '@' && s[|a| + 1 + |b|] == '.' && |s| == |a| + |b| + |c| + 2
  {
  }

  /** The `lowercase` and `trim` setters of the `email` path. */
  function NormalizeEmail(e: string): string {
    Trim(ToLowerCase(e))
  }

  /** A normalised email is lower case, has no outer whitespace, and
      normalising it again changes nothing. */
  lemma NormalizeEmailFacts(e: string)
    ensures IsLowerCase(NormalizeEmail(e))
    ensures Trimmed(NormalizeEmail(e))
    ensures NormalizeEmail(NormalizeEmail(e)) == NormalizeEmail(e)
  {
    var l := ToLowerCase(e);
    ToLowerCaseFacts(e);
    TrimRemovesOnlyOuterSpace(l);
    var i, j :| 0 <= i <= j <= |l| && Trim(l) == l[i..j];
    LowerCaseSlice(l, i, j);
    var r := Trim(l);
    ToLowerCaseFacts(r);
    TrimTrimmed(r);
  }

  lemma LowerCaseSlice(s: string, i: nat, j: nat)
    requires IsLowerCase(s) && i <= j <= |s|
    ensures IsLowerCase(s[i..j])
  {
    forall k | 0 <= k < j - i ensures !('A' <= s[i..j][k] <= 'Z') {
      assert s[i..j][k] == s[i + k];
    }
  }

  datatype User = User(id: ObjectId, nome: string, email: string, senha: string, role: Role)

  /** The fields handed to `new User({ nome, email, senha, role })`;
      a missing field is `None`. */
  datatype UserFields = UserFields(
    nome: Option<string>, email: Option<string>, senha: Option<string>, role: Option<string>)

  /** The document a registration builds from `req.body`, with the password
      replaced by its digest. */
  function FieldsFromBody(b: JsonBody, digest: string): UserFields {
    UserFields(Field(b, "nome"), Field(b, "email"), Some(digest), Field(b, "role"))
  }

  function Setter(v: Option<string>, f: string -> string): Option<string> {
    match v
    case None => None
    case Some(x) => Some(f(x))
  }

  /** The validators that fail when the document is saved, in schema order.
      Setters run first; `match` skips an empty value and `enum` skips an
      absent one, leaving those to `required` and the default. */
  function Violations(f: UserFields): seq<SchemaError> {
    var nome := Setter(f.nome, Trim);
    var email := Setter(f.email, NormalizeEmail);
    (if RequiredString(nome) then [] else [Required("nome")])
    + (if !RequiredString(email) then [Required("email")]
       else if !MatchesEmailShape(email.value) then [NoMatch("email", email.value)]
       else [])
    + (if RequiredString(f.senha) then [] else [Required("senha")])
    + (if f.role.Some? && ParseRole(f.role.value).None? then [NotInEnum("role", f.role.value)] else [])
  }

  /** What every stored user satisfies. */
  ghost predicate ValidUser(u: User) {
    && u.nome != "" && Trimmed(u.nome)
    && IsLowerCase(u.email) && Trimmed(u.email) && EmailShape(u.email)
    && u.senha != ""
  }

  /** Builds and validates a user document: the fields after their setters,
      `Perito` when no role is given, or the failed validators. */
  function CreateUser(id: ObjectId, f: UserFields): (r: Result<User, seq<SchemaError>>)
    ensures r.Ok? <==>
      && f.nome.Some? && Trim(f.nome.value) != ""
      && f.email.Some? && NormalizeEmail(f.email.value) != "" && MatchesEmailShape(NormalizeEmail(f.email.value))
      && f.senha.Some? && f.senha.value != ""
      && (f.role.None? || f.role.value in RoleNames)
    ensures r.Ok? ==>
      && r.value.id == id && r.value.nome == Trim(f.nome.value)
      && r.value.email == NormalizeEmail(f.email.value) && r.value.senha == f.senha.value
    ensures r.Ok? ==> r.value.role == if f.role.None? then DefaultRole else ParseRole(f.role.value).value
    ensures r.Err? ==> |r.error| > 0
  {
    var errors := Violations(f);
    if errors == [] then
      Ok(User(id, Trim(f.nome.value), NormalizeEmail(f.email.value), f.senha.value,
              if f.role.None? then DefaultRole else ParseRole(f.role.value).value))
    else
      Err(errors)
  }

  /** Every user the schema accepts satisfies what stored users satisfy. */
  lemma CreatedUserIsValid(id: ObjectId, f: UserFields)
    ensures CreateUser(id, f).Ok? ==> ValidUser(CreateUser(id, f).value)
  {
    if CreateUser(id, f).Ok? {
      NormalizeEmailFacts(f.email.value);
      EmailShapeDecided(NormalizeEmail(f.email.value));
    }
  }

  /** The acceptance condition of `CreateUser` with the email pattern
      itself in place of its one-pass decision. */
  lemma CreateUserAcceptsPattern(id: ObjectId, f: UserFields)
    ensures CreateUser(id, f).Ok? <==>
      && f.nome.Some? && Trim(f.nome.value) != ""
      && f.email.Some? && NormalizeEmail(f.email.value) != "" && EmailShape(NormalizeEmail(f.email.value))
      && f.senha.Some? && f.senha.value != ""
      && (f.role.None? || f.role.value in RoleNames)
  {
    if f.email.Some? {
      EmailShapeDecided(NormalizeEmail(f.email.value));
    }
  }

  /** `toObject()` of a stored user. */
  function ToObject(u: User): map<string, string> {
    map["_id" := u.id, "nome" := u.nome, "email" := u.email, "senha" := u.senha, "role" := RoleName(u.role)]
  }

  /** `toJSON`: the document object with `senha` deleted. */
  function ToJSON(u: User): (j: map<string, string>)
    ensures "senha" !in j
    ensures j.Keys == ToObject(u).Keys - {"senha"}
    ensures forall k :: k in j ==> j[k] == ToObject(u)[k]
  {
    ToObject(u) - {"senha"}
  }

  /** The user object the controllers put in responses:
      `{ id, nome, email, role }`. */
  datatype PublicUser = PublicUser(id: ObjectId, nome: string, email: string, role: string)

  function Public(u: User): PublicUser {
    PublicUser(u.id, u.nome, u.email, RoleName(u.role))
  }

  /** The response object carries the same values as `toJSON` under the
      same names (`id` for `_id`) and nothing derived from the password. */
  lemma PublicAgreesWithJSON(u: User)
    ensures var j := ToJSON(u);
      && j["_id"] == Public(u).id && j["nome"] == Public(u).nome
      && j["email"] == Public(u).email && j["role"] == Public(u).role
      && j.Keys == {"_id", "nome", "email", "role"}
  {
  }

  /** The token payload both login flows sign for a user. */
  function ClaimsOf(u: User): Claims {
    Claims(u.id, u.nome, u.email, RoleName(u.role))
  }

  /** The `users` collection, keyed by the normalised email. */
  type UserStore = map<string, User>

  /** Every user is valid and stored under its own email, and ids are
      distinct; together with the keying this is the unique index on `email`. */
  ghost predicate StoreInvariant(st: UserStore) {
    && (forall e :: e in st ==> st[e].email == e && ValidUser(st[e]))
    && (forall e1, e2 :: e1 in st && e2 in st && e1 != e2 ==> st[e1].id != st[e2].id)
  }

  predicate IdInUse(st: UserStore, id: ObjectId) {
    exists e :: e in st && st[e].id == id
  }

  /** Storing a valid user under its own, unused email with an unused id
      keeps the invariant. */
  lemma InsertKeepsInvariant(st: UserStore, u: User)
    requires StoreInvariant(st) && ValidUser(u) && u.email !in st && !IdInUse(st, u.id)
    ensures StoreInvariant(st[u.email := u])
  {
    var st' := st[u.email := u];
    forall e | e in st' ensures st'[e].email == e && ValidUser(st'[e]) {
      if e != u.email { assert st'[e] == st[e]; }
    }
    forall e1, e2 | e1 in st' && e2 in st' && e1 != e2
      ensures st'[e1].id != st'[e2].id
    {
      if e1 == u.email {
        assert e2 in st && st'[e2] == st[e2];
      } else if e2 == u.email {
        assert e1 in st && st'[e1] == st[e1];
      }
    }
  }

  /** `User.findOne({ email })`: the filter goes through the schema's
      setters, so the lookup ignores case and outer whitespace. */
  function FindByEmail(st: UserStore, email: string): (r: Option<User>)
    ensures r.Some? <==> NormalizeEmail(email) in st
    ensures r.Some? ==> r.value == st[NormalizeEmail(email)]
  {
    var key := NormalizeEmail(email);
    if key in st then Some(st[key]) else None
  }

  /** In a store that keeps its invariant, the keyed lookup is the query
      on the stored `email` field: it finds a user exactly when some stored
      user's email is the normalised filter value, and the user it finds
      has that email. */
  lemma FindByEmailMatchesStoredEmail(st: UserStore, e: string)
    requires StoreInvariant(st)
    ensures FindByEmail(st, e).Some? <==> exists k :: k in st && st[k].email == NormalizeEmail(e)
    ensures FindByEmail(st, e).Some? ==> FindByEmail(st, e).value.email == NormalizeEmail(e)
  {
  }

  /** No two stored users share an email. */
  lemma EmailsUnique(st: UserStore, e1: string, e2: string)
    requires StoreInvariant(st)
    requires e1 in st && e2 in st && st[e1].email == st[e2].email
    ensures e1 == e2 && st[e1] == st[e2]
  {
  }
}

=== FILE: user_routes.dfy ===
/** The user router: registration and login, each a validation chain, the
    400 short-circuit, and `UserController`. */
module UserRoutes {
  import opened Wrappers
  import opened Http
  import opened Documents
  import opened Jwt
  import opened Validation
  import opened UserModel
  import UserController

  /** `POST /register`. */
  function PostRegister(st: UserStore, b: JsonBody, isEmail: string -> bool, newId: ObjectId,
                        hash: string -> string): (d: Dispatch<Handled<UserController.Body, UserStore>>)
    requires !isEmail("")
    ensures d.Rejected? <==> RegisterErrors(b, isEmail) != []
    ensures d.Rejected? ==> d.response == Response(400, RegisterErrors(b, isEmail))
    ensures d.Invoked? ==> "email" in b && d.result == UserController.Register(st, b, newId, hash)
  {
    var errors := RegisterErrors(b, isEmail);
    if errors != [] then Rejected(Response(400, errors))
    else
      PassingBodyHasFields(b, isEmail);
      Invoked(UserController.Register(st, b, newId, hash))
  }

  /** `POST /login`. */
  function PostLogin(st: UserStore, b: JsonBody, isEmail: string -> bool, compare: (string, string) -> bool,
                     secret: Option<string>, sign: Signer): (d: Dispatch<Response<UserController.Body>>)
    requires !isEmail("")
    ensures d.Rejected? <==> LoginErrors(b, isEmail) != []
    ensures d.Rejected? ==> d.response == Response(400, LoginErrors(b, isEmail))
    ensures d.Invoked? ==> "email" in b && d.result == UserController.Login(st, b, compare, secret, sign)
  {
    var errors := LoginErrors(b, isEmail);
    if errors != [] then Rejected(Response(400, errors))
    else
      PassingBodyHasFields(b, isEmail);
      Invoked(UserController.Login(st, b, compare, secret, sign))
  }

  /** Through the router, registration never sees an empty name, a short
      password or an unknown role, so the schema's role default and the
      hasher's missing-password failure are out of reach. */
  lemma RegisterThroughRouter(st: UserStore, b: JsonBody, isEmail: string -> bool, newId: ObjectId,
                              hash: string -> string)
    requires !isEmail("")
    ensures Value(b, "nome") == "" || |Value(b, "senha")| < MinSenhaLength || Value(b, "role") !in RoleNames ==>
      PostRegister(st, b, isEmail, newId, hash).Rejected?
    ensures PostRegister(st, b, isEmail, newId, hash).Invoked? ==>
      "senha" in b && |b["senha"]| >= MinSenhaLength && "role" in b && b["role"] in RoleNames
  {
  }
}

=== FILE: validation.dfy ===
/** The request-body validation chains both routers put in front of
    registration and login. A missing field reads as the empty string, as
    the validator library does; `isEmail` is that library's own check and
    reaches the model as a parameter. */
module Validation {
  import opened Http
  import UserModel

  /** One entry of `validationResult(req).array()`: the field and its message. */
  datatype FieldError = FieldError(path: string, msg: string)

  const NomeRequired: string := "Nome é obrigatório"
  const EmailInvalid: string := "E-mail inválido"
  const SenhaTooShort: string := "Senha deve ter pelo menos 6 caracteres"
  const RoleInvalid: string := "Role inválido"
  const SenhaRequired: string := "Senha é obrigatória"

  /** The shortest password registration accepts. */
  const MinSenhaLength: nat := 6

  /** The value a validator sees for a body field. */
  function Value(b: JsonBody, name: string): string {
    if name in b then b[name] else ""
  }

  function Check(ok: bool, path: string, msg: string): seq<FieldError> {
    if ok then [] else [FieldError(path, msg)]
  }

  /** The registration chain: `nome` not empty, `email` an email, `senha` at
      least six characters, `role` one of the three roles; one error per
      failing field, in chain order. */
  function RegisterErrors(b: JsonBody, isEmail: string -> bool): (errs: seq<FieldError>)
    ensures errs == [] <==>
      && Value(b, "nome") != "" && isEmail(Value(b, "email"))
      && |Value(b, "senha")| >= MinSenhaLength && Value(b, "role") in UserModel.RoleNames
    ensures (Value(b, "nome") == "") <==> FieldError("nome", NomeRequired) in errs
    ensures !isEmail(Value(b, "email")) <==> FieldError("email", EmailInvalid) in errs
    ensures (|Value(b, "senha")| < MinSenhaLength) <==> FieldError("senha", SenhaTooShort) in errs
    ensures (Value(b, "role") !in UserModel.RoleNames) <==> FieldError("role", RoleInvalid) in errs
    ensures |errs| <= 4
  {
    Check(Value(b, "nome") != "", "nome", NomeRequired)
    + Check(isEmail(Value(b, "email")), "email", EmailInvalid)
    + Check(|Value(b, "senha")| >= MinSenhaLength, "senha", SenhaTooShort)
    + Check(Value(b, "role") in UserModel.RoleNames, "role", RoleInvalid)
  }

  /** The login chain: `email` an email and `senha` not empty. */
  function LoginErrors(b: JsonBody, isEmail: string -> bool): (errs: seq<FieldError>)
    ensures errs == [] <==> isEmail(Value(b, "email")) && Value(b, "senha") != ""
    ensures !isEmail(Value(b, "email")) <==> FieldError("email", EmailInvalid) in errs
    ensures (Value(b, "senha") == "") <==> FieldError("senha", SenhaRequired) in errs
    ensures |errs| <= 2
  {
    Check(isEmail(Value(b, "email")), "email", EmailInvalid)
    + Check(Value(b, "senha") != "", "senha", SenhaRequired)
  }

  /** A body that passes a chain carries every field the chain checks,
      given that the email check refuses the empty string. */
  lemma PassingBodyHasFields(b: JsonBody, isEmail: string -> bool)
    requires !isEmail("")
    ensures RegisterErrors(b, isEmail) == [] ==> "nome" in b && "email" in b && "senha" in b && "role" in b
    ensures LoginErrors(b, isEmail) == [] ==> "email" in b && "senha" in b
  {
  }

  /** What a router does with a request after its chain: answer 400 with
      the errors without calling the controller, or call it. */
  datatype Dispatch<T> = Rejected(response: Response<seq<FieldError>>) | Invoked(result: T)
}

=== FILE: wrappers.dfy ===
/** Optional values and validation results shared by every module. */
module Wrappers {

  /** A value that may be missing, as JavaScript's `undefined`. */
  datatype Option<+T> = None | Some(value: T)

  /** The outcome of a check that either accepts a value or reports why not. */
  datatype Result<+T, +E> = Ok(value: T) | Err(error: E)
}
